=== FILE: README.md ===
# HEFT and PHEFT list scheduling, modelled in Dafny

This project models the scheduling core of the `shadow` workflow scheduler. It places the tasks of a workflow DAG on a fixed set of heterogeneous machines with two list-scheduling heuristics:

- **HEFT** ranks tasks by their *upward rank*. A task's upward rank is its average runtime plus the most expensive data-plus-rank path through its successors.
- **PHEFT** ranks tasks by an *Optimistic Cost Table* (OCT). An OCT entry is, per task and machine, the optimistic cost of the remaining work.

Both heuristics sort the tasks by descending rank. They then commit the tasks one at a time, each into the earliest idle gap of the chosen machine's timeline.

Layout, one module per file:

| file | module | models |
|---|---|---|
| `wrappers.dfy` | `Wrappers` | `Option`, used for the source's `None` results and `KeyError`s |
| `workflow.dfy` | `Workflow` | `Task`: identity, runtime look-ups, rank/machine setters. `Workflow.add_environment` in time mode, and `Workflow.sort_tasks` |
| `ranking.dfy` | `Ranking` | `rank_up`, `upward_rank`, `rank_oct`, `upward_oct_rank`, `ave_comm_cost` |
| `earliest_start.dfy` | `EarliestStart` | `calc_est`: the ready time, and the gap search over a machine's allocations |
| `insertion.dfy` | `Insertion` | one iteration, and the whole loop, of `insertion_policy` and `insertion_policy_oct` |
| `schedule_invariants.dfy` | `ScheduleInvariants` | whole-pass theorems: no overlaps, precedence, every task placed, the makespan |
| `heuristic.dfy` | `Heuristics` | `heft` and `pheft` end to end |

How the Python program is represented:
- **Machines** are the positions `0 .. M-1` of the environment's machine keys.
- A task's `calculated_runtime` is a sequence indexed by machine, which is exactly what `dict(zip(keys, comp))` builds.
- **The graph** is the task sequence in networkx node order, plus a sequence of edges carrying the `data_size` attribute that `ave_comm_cost` returns.
  - The graph also carries a topological level per task. The level states that the graph is acyclic and measures recursion depth.
- **Task ids** are unique, as the comment at shadow/classes/workflow.py:36 says. The graph's well-formedness requires it, and `Insertion.FirstNodeIsPositionZero` proves that the first node is then exactly position 0.
- **Scheduling fields** (`machine`, `ast`, `aft`) are kept in a `Placement` per task.
- **Solution** is modelled as one allocation list per machine, in start-time order. Its `add_allocation` and `list_machine_allocations` reduce to that list.

Behaviour kept from the code as written:
- **First task.** The first task in *graph* order, compared by task id, is handled separately wherever it falls in the rank order:
  - HEFT puts it at time 0 on the machine with the smallest runtime, chosen by Python's `min`, so the first one wins ties.
  - PHEFT puts it at time 0 on the machine with the least `runtime + OCT` entry.
  - Neither looks at the timeline.
  - The published algorithm (Topcuoglu, Hariri and Wu, 2002) starts from the highest-priority task; the code special-cases the first node in graph order instead, and the model follows the code.
- **HEFT makespan.** HEFT moves the makespan to a task's finish only when that task *starts* at or after the current makespan. The model keeps this rule instead of using the maximum finish time. `Heuristics.HeftMissesLateFinish` runs `heft` on three independent tasks and two machines: it reports 20 although a task finishes at 25. PHEFT moves the makespan when the *finish* is at or after it, and the model proves that PHEFT reports exactly the largest finish time over the tasks *other than the first node* in graph order. The first node's branch never touches the makespan (`Insertion.OctFirstNodeAtZero`), so its finish is not counted. For instance, with two independent tasks with runtimes [100, 100] and [1, 1], an all-zero OCT table and the order [0, 1], the pass reports 1 although task 0 finishes at 100.
- **Machine selection.** Both selection loops start from the sentinel `-1` and keep the first strictly smaller value. With non-negative values this picks the first least machine.
- **Predecessor test.** `insertion_policy_oct` tests `wf.graph.predecessors(task)`, which returns an iterator and is always true. So every task other than the first node goes through `calc_est`.
- **OCT seeds.** The minimum in `rank_oct` starts at 1000, so every OCT entry lies in `[0, 1000]`. The maximum starts at 0.
- **OCT scalar rank.** It is `int(sum / M)`. The entries are non-negative, so this is the floor of the row average rather than the exact average.
- **Rank sort.** It is Python's stable `sorted(..., reverse=True)`: descending rank, with equal ranks kept in graph node order.

## Model

| member | source | states |
|---|---|---|
| `Workflow.NewTask` | shadow/classes/workflow.py:35-49 | a new task keeps its id and `comp` list, has rank -1, no machine, start and finish 0, and an empty runtime table |
| `Workflow.IdentityIsTid` | shadow/classes/workflow.py:55-68 | equality, hashing and both orderings depend on the task id only: equal tasks hash alike, `<=` is `<` or equal, `<` is irreflexive and asymmetric |
| `Workflow.CalcRuntime` | shadow/classes/workflow.py:70-71 | the look-up succeeds exactly for a machine in the runtime table (a `KeyError` otherwise) and yields that machine's entry |
| `Workflow.CalcAveRuntime` | shadow/classes/workflow.py:73-74 | the average times the number of machines is the sum of the runtimes |
| `Workflow.AveRuntimeWithin` | shadow/classes/workflow.py:73-74 | the average lies between any lower and any upper bound of the runtimes |
| `Workflow.AveRuntimePositive` | shadow/classes/workflow.py:73-74 | with every runtime positive, the average is positive |
| `Workflow.UpdateTaskRank` | shadow/classes/workflow.py:76-77 | the rank becomes the given value and no other field changes |
| `Workflow.AllocateTask` | shadow/classes/workflow.py:79-81 | the machine becomes the given one and no other field changes |
| `Workflow.InsertKeepsSorted` | shadow/classes/workflow.py:164-166 | inserting a task that is not yet present keeps a sequence in descending-rank, node-order-among-equals order |
| `Workflow.SortByRankSorted` | shadow/classes/workflow.py:164-166 | sorting distinct tasks produces descending-rank order with equal ranks in their original order |
| `Workflow.SortTasks` | shadow/classes/workflow.py:156-171 | a result exists exactly for `'rank'`; it holds every task once, in descending rank, with ties in node order; other unknown sort types give `None` |
| `Workflow.SortIsStableDescending` | shadow/classes/workflow.py:164-166 | in the sorted order, tasks at different positions differ, ranks never increase, and equal ranks keep ascending node order |
| `Workflow.FirstMismatch` | shadow/classes/workflow.py:129-131 | the first task whose `comp` list does not have one entry per machine, every earlier one having the right length |
| `Workflow.AddEnvironment` | shadow/classes/workflow.py:116-139 | the result code is 0 or -1 and the task sequence keeps its length |
| `Workflow.AddEnvironmentAttachesRuntimes` | shadow/classes/workflow.py:126-139 | returns 0 exactly when every task has one `comp` entry per machine, and -1 otherwise; the tasks before the first mismatch get their `comp` list as runtime table, the rest are untouched, and on success every task has one runtime per machine |
| `Ranking.LongestDominates` | shadow/algorithms/heuristic.py:112-120 | the running maximum is at least `data_size + rank` for every successor edge seen so far |
| `Ranking.LongestAttained` | shadow/algorithms/heuristic.py:112-120 | the running maximum is 0 (the seed) or the `data_size + rank` of one successor edge |
| `Ranking.RankUpExit` | shadow/algorithms/heuristic.py:112-122 | a task without successors has its average runtime as upward rank |
| `Ranking.RankUpRecurrence` | shadow/algorithms/heuristic.py:100-122 | the upward rank is the average runtime plus the largest of 0 and every successor's `data_size + rank`: at least each, and equal to one of them |
| `Ranking.RankUpMemo` | shadow/algorithms/heuristic.py:100-122 | the memoised recursion, which descends only into successors still ranked -1, gives the task its upward rank, never changes a rank already set, and leaves every entry -1 or correct |
| `Ranking.RankDecreasesAlongEdges` | shadow/algorithms/heuristic.py:100-122 | with positive runtimes and non-negative data sizes, a task's upward rank is strictly greater than each successor's |
| `Ranking.UpwardRank` | shadow/algorithms/heuristic.py:75-82 | after the loop, every task it visits carries its upward rank |
| `Ranking.Oct` | shadow/algorithms/heuristic.py:153-174 | every OCT entry lies between the max seed 0 and the min seed 1000 |
| `Ranking.OctMinIsMin` | shadow/algorithms/heuristic.py:160-171 | the inner minimum is at most every machine's `OCT + runtime + communication` term, and is the seed 1000 or one of those terms |
| `Ranking.OctMaxIsMax` | shadow/algorithms/heuristic.py:158-172 | the outer maximum is at least every successor's inner minimum, and is 0 or one of them |
| `Ranking.OctExit` | shadow/algorithms/heuristic.py:158-174 | a task without successors has OCT 0 on every machine |
| `Ranking.OctRecurrence` | shadow/algorithms/heuristic.py:153-174 | `OCT[t, pk]` is the largest over successors of the least over machines of `OCT[s, m] + runtime[s][m]` plus the edge's data size when `m` is not `pk`, with the seeds 0 and 1000 |
| `Ranking.RankOct` | shadow/algorithms/heuristic.py:153-174 | the memoised recursion fills `OCT[t, pk]` with its value, keeps every existing entry, and only adds correct ones |
| `Ranking.OctRowSum` | shadow/algorithms/heuristic.py:90-94 | the sum of a task's OCT row over the first `m` machines lies between 0 and `1000 * m` |
| `Ranking.OctRank` | shadow/algorithms/heuristic.py:90-97 | the scalar OCT rank is `int(sum / M)`: `r * M <= sum < (r + 1) * M`, within `[0, 1000]` |
| `Ranking.UpwardOctRank` | shadow/algorithms/heuristic.py:85-97 | afterwards the table holds the right OCT value for every task and machine, and every task's rank is its scalar OCT rank |
| `EarliestStart.ReadyUpToIsMax` | shadow/algorithms/heuristic.py:225-239 | the running ready time is at least the arrival over every predecessor edge seen, and is 0 or one of those arrivals |
| `EarliestStart.ReadyTimeIsLatestArrival` | shadow/algorithms/heuristic.py:225-239 | the ready time is non-negative, is at least every predecessor's finish plus the data size when it sits on another machine or none, and is 0 or one of those arrivals |
| `EarliestStart.Between` | shadow/algorithms/heuristic.py:255-260 | the inner gaps run from each allocation's finish to the next one's start |
| `EarliestStart.Arrival` | shadow/algorithms/heuristic.py:227-239 | a predecessor's data arrives at its finish when it sits on the same machine, and otherwise no earlier than its finish (for a non-negative data size) and no later than its finish plus the larger of the data size and 0 |
| `EarliestStart.Gaps` | shadow/algorithms/heuristic.py:245-262 | no allocation gives no gap; otherwise one gap per allocation plus a leading one exactly when the first allocation starts after 0, and the last gap runs from the last finish, unbounded |
| `EarliestStart.Rule` | shadow/algorithms/heuristic.py:264-277 | a gap accepts the task exactly when it is unbounded or the task, started at the later of the ready time and the gap's start, ends within it; the start it gives is that later time |
| `EarliestStart.FirstFit` | shadow/algorithms/heuristic.py:264-279 | the first gap that accepts the task decides its start; when none does, the ready time is returned |
| `EarliestStart.GapSearchAfterSole` | shadow/algorithms/heuristic.py:245-279 | behind a single allocation starting at 0, a task ready by its finish starts at that finish |
| `EarliestStart.GapsShape` | shadow/algorithms/heuristic.py:246-262 | the gap list has a leading `(0, first start)` exactly when the first allocation starts after 0, then one gap between consecutive allocations, then `(last finish, -1)` |
| `EarliestStart.GapSearch` | shadow/algorithms/heuristic.py:264-279 | the gap search never returns a time before the ready time, and returns the ready time on an empty machine |
| `EarliestStart.FirstFitAtLeast` | shadow/algorithms/heuristic.py:264-279 | whichever of the four rules fires, or none, the start is not before the ready time |
| `EarliestStart.GapsSeparate` | shadow/algorithms/heuristic.py:246-262 | on a sorted timeline, every gap lies between the allocations before it and the allocations after it |
| `EarliestStart.FirstFitFree` | shadow/algorithms/heuristic.py:264-279 | the start the rules pick leaves room for the task without overlapping any allocation |
| `EarliestStart.GapSearchFree` | shadow/algorithms/heuristic.py:241-279 | on a sorted timeline, the interval starting at the result and lasting the runtime overlaps no allocation |
| `EarliestStart.GapsAreOrdered` | shadow/algorithms/heuristic.py:246-262 | the gaps come in time order |
| `EarliestStart.FreeStartInSomeGap` | shadow/algorithms/heuristic.py:246-262 | every overlap-free interval lies inside one of the gaps |
| `EarliestStart.FirstFitEarliest` | shadow/algorithms/heuristic.py:264-279 | no start in an earlier-or-same gap, at or after the ready time, is earlier than the rule's pick |
| `EarliestStart.GapSearchEarliest` | shadow/algorithms/heuristic.py:241-279 | with a positive runtime, the result is at most any overlap-free start at or after the ready time |
| `EarliestStart.CalcEst` | shadow/algorithms/heuristic.py:220-279 | `calc_est` is never before the ready time, and equals it on a machine with no allocations |
| `EarliestStart.CalcEstIsEarliestFree` | shadow/algorithms/heuristic.py:220-279 | on a sorted timeline with a positive runtime, `calc_est` is the least start at or after the ready time whose interval overlaps no allocation |
| `Insertion.InitialSchedule` | shadow/algorithms/heuristic.py:287 | before the pass, nothing is placed, every machine is idle and the makespan is 0 |
| `Insertion.FirstMinUpToIsFirstMin` | shadow/algorithms/heuristic.py:294-297 | `min` over the runtime table picks the first machine of least runtime |
| `Insertion.SelectUpToIsFirstMin` | shadow/algorithms/heuristic.py:304-315 | with non-negative values, the sentinel loop over the first `i` machines keeps the first least value |
| `Insertion.SelectIsFirstMin` | shadow/algorithms/heuristic.py:304-315 | with non-negative values, the sentinel `-1` selection returns the first machine of least value |
| `Insertion.InsertByStart` | shadow/algorithms/heuristic.py:324 | adding an allocation adds exactly that allocation to the machine's list |
| `Insertion.InsertKeepsTimeline` | shadow/algorithms/heuristic.py:324 | inserting a non-empty, overlap-free interval keeps a timeline sorted and overlap-free |
| `Insertion.Commit` | shadow/algorithms/heuristic.py:317-324 | committing sets the task's machine, start and finish, inserts it in start-time order into that machine's list only, and changes no other task or machine |
| `Insertion.Efts` | shadow/algorithms/heuristic.py:306-315 | the finish-time candidate for each machine is `calc_est` there plus the runtime |
| `Insertion.FirstNodeIsPositionZero` | shadow/algorithms/heuristic.py:293 | with unique task ids, a task is the first node in graph order exactly when it is at position 0 |
| `Insertion.HeftDecide` | shadow/algorithms/heuristic.py:293-322 | the chosen machine exists, the finish is the start plus the task's runtime there, and the makespan either stays or becomes that finish |
| `Insertion.HeftPass` | shadow/algorithms/heuristic.py:282-328 | the HEFT loop keeps a schedule with one placement per task and one timeline per machine; what it computes is stated by `HeftPassPlacesAll`, `HeftPassNoOverlap`, `HeftPassRespectsPrecedence` and `HeftMakespanBounded` |
| `Insertion.OctDecide` | shadow/algorithms/heuristic.py:345-381 | the chosen machine exists, the finish is the start plus the task's runtime there, and the makespan either stays or becomes that finish |
| `Insertion.OctPass` | shadow/algorithms/heuristic.py:331-385 | the PHEFT loop keeps a schedule with one placement per task and one timeline per machine; what it computes is stated by `OctPassPlacesAll`, `OctPassNoOverlap`, `OctPassRespectsPrecedence` and `OctMakespanIsMaxFinish` |
| `Insertion.HeftDecideStartsAtEst` | shadow/algorithms/heuristic.py:303-322 | under HEFT, a task other than the first node starts at `calc_est` on the machine chosen for it, whatever the signs of the runtimes |
| `Insertion.OctDecideStartsAtEst` | shadow/algorithms/heuristic.py:359-377 | under PHEFT, a task other than the first node starts at `calc_est` on the machine chosen for it |
| `Insertion.HeftStep` | shadow/algorithms/heuristic.py:291-324 | one iteration allocates the task and no other task's placement changes |
| `Insertion.HeftCommitsEarliestFinish` | shadow/algorithms/heuristic.py:303-324 | for a task other than the first node: the first machine of least earliest finish, start = `calc_est` there, finish = start + runtime, not before any predecessor's arrival, others untouched; the makespan becomes the finish exactly when the start is not before it |
| `Insertion.HeftFirstNodeAtZero` | shadow/algorithms/heuristic.py:293-302 | the first node in graph order gets the first machine of least runtime, starts at 0, finishes at that runtime, and leaves the makespan alone |
| `Insertion.Oefts` | shadow/algorithms/heuristic.py:366-370 | the optimistic finish on each machine is the finish time plus the task's OCT entry there |
| `Insertion.OctFirstNodeAtZero` | shadow/algorithms/heuristic.py:345-358 | the first node in graph order gets the first machine of least runtime plus OCT entry, starts at 0, finishes at that runtime, and leaves the makespan alone |
| `Insertion.OctStep` | shadow/algorithms/heuristic.py:344-382 | one iteration allocates the task and no other task's placement changes |
| `Insertion.OctCommitsLeastOptimisticFinish` | shadow/algorithms/heuristic.py:359-382 | for a task other than the first node: the first machine of least finish-plus-OCT, start = `calc_est` there, finish = start + runtime, others untouched |
| `ScheduleInvariants.CommitKeepsTimelines` | shadow/algorithms/heuristic.py:317-324 | committing a non-empty overlap-free interval keeps every machine's timeline sorted and overlap-free |
| `ScheduleInvariants.HeftStepKeepsTimelines` | shadow/algorithms/heuristic.py:303-324 | with positive runtimes, a HEFT step for a task other than the first node keeps every timeline overlap-free |
| `ScheduleInvariants.FirstStepKeepsTimelines` | shadow/algorithms/heuristic.py:293-302 | the first node, committed while every machine is idle, keeps every timeline overlap-free |
| `ScheduleInvariants.HeftPassNoOverlap` | shadow/algorithms/heuristic.py:289-324 | when the first node in graph order also comes first in the rank order, HEFT never overlaps two tasks on a machine |
| `ScheduleInvariants.EstSlotIsFree` | shadow/algorithms/heuristic.py:220-279 | with positive runtimes on sorted timelines, the interval from `calc_est` lasting the runtime is non-negative and overlaps no allocation |
| `ScheduleInvariants.OctFirstStepKeepsTimelines` | shadow/algorithms/heuristic.py:345-358 | the first node under PHEFT, committed while every machine is idle, keeps every timeline overlap-free |
| `ScheduleInvariants.OctLaterStepKeepsTimelines` | shadow/algorithms/heuristic.py:359-382 | with positive runtimes, a PHEFT step for a task other than the first node keeps every timeline overlap-free |
| `ScheduleInvariants.OctStepKeepsTimelines` | shadow/algorithms/heuristic.py:344-382 | with positive runtimes, a PHEFT step keeps every timeline overlap-free, the first node only while every machine is idle |
| `ScheduleInvariants.OctPassNoOverlap` | shadow/algorithms/heuristic.py:343-382 | when the first node also comes first in the rank order, PHEFT never overlaps two tasks on a machine |
| `ScheduleInvariants.PlacedAfterStep` | shadow/algorithms/heuristic.py:291-324 | a step that allocates its task and changes nothing else keeps every earlier task allocated |
| `ScheduleInvariants.HeftPassPlacesAll` | shadow/algorithms/heuristic.py:291-324 | every task of the HEFT loop ends up with a machine |
| `ScheduleInvariants.OctPassPlacesAll` | shadow/algorithms/heuristic.py:344-382 | every task of the PHEFT loop ends up with a machine |
| `ScheduleInvariants.StepKeepsPrecedence` | shadow/algorithms/heuristic.py:225-239 | a step that starts its task after every predecessor's arrival, and changes no other task, keeps all precedence constraints met |
| `ScheduleInvariants.HeftPassRespectsPrecedence` | shadow/algorithms/heuristic.py:303-324 | for any runtime table, every edge whose source is scheduled earlier and whose destination is not the first node is met: the destination starts after the source's finish plus the data size when the machines differ |
| `ScheduleInvariants.HeftStepAfterArrivals` | shadow/algorithms/heuristic.py:303-322 | a HEFT step for a task other than the first node starts it no earlier than any predecessor's data arrives on the chosen machine, whatever the signs of the runtimes |
| `ScheduleInvariants.OctStepAfterArrivals` | shadow/algorithms/heuristic.py:359-378 | a PHEFT step for a task other than the first node starts it no earlier than any predecessor's data arrives on the chosen machine |
| `ScheduleInvariants.OctPassRespectsPrecedence` | shadow/algorithms/heuristic.py:359-382 | the same precedence guarantee for PHEFT, for any runtime table |
| `ScheduleInvariants.MaxFinish` | shadow/algorithms/heuristic.py:380-381 | the reference makespan: the largest finish, seeded with 0, over the scheduled tasks other than the first node, attained by one of them |
| `ScheduleInvariants.MaxFinishFrame` | shadow/algorithms/heuristic.py:380-381 | the reference makespan does not depend on tasks outside the order |
| `ScheduleInvariants.OctMakespanIsMaxFinish` | shadow/algorithms/heuristic.py:380-385 | the makespan PHEFT returns is exactly the largest finish time over the tasks other than the first node in graph order, whose own finish is not counted |
| `ScheduleInvariants.HeftStepMakespan` | shadow/algorithms/heuristic.py:293-322 | one HEFT step leaves the makespan alone or moves it to the finish of the task it placed, which is then not the first node |
| `ScheduleInvariants.MakespanStepBounded` | shadow/algorithms/heuristic.py:321-322 | a makespan within the finishes of the tasks placed so far stays within them when the next step keeps it or moves it to the new task's finish |
| `ScheduleInvariants.HeftMakespanBounded` | shadow/algorithms/heuristic.py:321-328 | the makespan HEFT returns never exceeds the largest finish time, and is 0 or one task's finish |
| `ScheduleInvariants.HeftMakespanCanMissFinish` | shadow/algorithms/heuristic.py:321-322 | the HEFT insertion pass over three independent tasks in the order [0, 1, 2] on two machines reports 20 while task 2 finishes at 25, because that task starts before the current makespan |
| `ScheduleInvariants.PrecedenceHonoursEdges` | shadow/algorithms/heuristic.py:225-239 | when the order holds every task and lists each edge's source before its destination, meeting the edges in order means meeting every edge into a task other than the first node |
| `Heuristics.SortedOrderIsDistinct` | shadow/classes/workflow.py:164-166 | a rank-sorted order never repeats a task |
| `Heuristics.EveryTaskPlaced` | shadow/algorithms/heuristic.py:291-324 | when the order holds every task and every task of the order is allocated, every task is allocated |
| `Heuristics.HeftPassFacts` | shadow/algorithms/heuristic.py:282-328 | over an order holding every task once: the makespan never exceeds the largest finish, every task is allocated, and precedence is met |
| `Heuristics.HeftOrderIsTopological` | shadow/classes/workflow.py:164-166 | with positive runtimes and non-negative data sizes, sorting by descending upward rank lists every edge's source before its destination |
| `Heuristics.UpwardRankOrder` | shadow/algorithms/heuristic.py:36-46 | `upward_rank` then `sort_tasks('rank')` give every task once, in descending upward rank with ties in node order |
| `Heuristics.EveryTaskRanked` | shadow/algorithms/heuristic.py:75-82 | ranking every task in node order leaves each one with its upward rank |
| `Heuristics.HeftHonoursEdges` | shadow/algorithms/heuristic.py:36-46 | with positive runtimes and non-negative data sizes, the upward-rank order lists every edge's source first, and the HEFT pass over it meets every edge into a task other than the first node |
| `Heuristics.HeftOutcome` | shadow/algorithms/heuristic.py:36-46 | over an upward-rank order holding every task: the makespan never exceeds the largest finish, every task is allocated, precedence is met, and every edge into a task other than the first node is met with positive costs |
| `Heuristics.Heft` | shadow/algorithms/heuristic.py:36-46 | `heft` sorts every task once by descending upward rank with ties in node order, runs the insertion policy and returns its makespan, which never exceeds the largest finish; every task is allocated, and precedence is met; with positive runtimes and non-negative data sizes the order is topological and every edge into a task other than the first node is met |
| `Heuristics.ThreeTasksRanks` | shadow/algorithms/heuristic.py:75-82 | the upward ranks of three independent tasks are their average runtimes, 60, 60 and 57.5 |
| `Heuristics.ThreeTasksOrder` | shadow/classes/workflow.py:164-166 | the stable descending sort of ranks 60, 60 and 57.5 is the node order [0, 1, 2] |
| `Heuristics.HeftMissesLateFinish` | shadow/algorithms/heuristic.py:36-46 | `heft` on three independent tasks and two machines reports makespan 20 while task 2 finishes at 25 |
| `Heuristics.OctPassFacts` | shadow/algorithms/heuristic.py:331-385 | over an order holding every task once: the makespan equals the largest finish, every task is allocated, and precedence is met |
| `Heuristics.Pheft` | shadow/algorithms/heuristic.py:48-57 | `pheft` builds the full OCT, sorts every task once by descending integer OCT rank with ties in node order, runs the OCT insertion policy, and returns the OCT table it built (every entry the OCT value), the schedule of the OCT insertion pass over that table, and exactly the largest finish over the tasks other than the first node in graph order, with every task allocated and precedence met |

## Left out

- `rank_up_random` (shadow/algorithms/heuristic.py:125-150) is left out because it draws a random number. `ave_comp_cost` and `max_comp_cost` are used only by it (its third branch calls `max_comp_cost` again), and `min_comp_cost` (shadow/algorithms/heuristic.py:215-217) is never called.
- `pcp` and `mols` are left out because they only return `None`.
- The commented-out data-rate computation in `ave_comm_cost` is left out. The model reads the edge's `data_size` directly, as the live code does. `int(...)` in `calc_est` is the identity here because data sizes are integers.
- `Workflow.__init__` and `pretty_print_allocation` are left out. They are JSON and networkx loading and printing.
- The "topological" branch of `sort_tasks` is excluded by a precondition of `Workflow.SortTasks`, because it calls networkx on the workflow object.
- The FLOPs branch of `add_environment` is left out because `Environment.calc_task_runtime_on_machine` is not part of this model. Building `machine_alloc` and the `Solution` object is not modelled either.
- `Environment` and `Solution` are not part of this model. `add_allocation` is modelled as insertion into the machine's list in start-time order. `list_machine_allocations` returns that list.
- Floating point is not modelled. Ranks are exact reals and the OCT values are integers.
- Python's `is not` comparisons are modelled as value inequality: the machine count against the `comp` length, and `machine is not pk`.
- The machine keys of `env.machines` and `machine_alloc` are assumed to come in one common order, which is the positional order of the model.
- Python's recursion limit is not modelled. Nor are the `eft_matrix` and `oeft_matrix` dictionaries, which are never read after the loop.
- `insertion_policy_oct` recomputes the table when `oct_rank_matrix` is empty. The model instead requires a complete table, which `pheft` always supplies.
- The published reference scenarios (the two ten-task DAGs) are not reproduced. Only a three-task HEFT example is proved.
- Workflow.CalcAveRuntime: requires a non-empty runtime table. The source raises `ZeroDivisionError` there.
- Workflow.SortTasks: requires a sort type other than "topological" (see above).
- Heuristics.Heft: requires at least one machine and a runtime table of that size for every task. With a task and no machines the source raises `ZeroDivisionError` in `calc_ave_runtime` (shadow/classes/workflow.py:74), reached from `rank_up` (shadow/algorithms/heuristic.py:122).
- Heuristics.Heft: requires every task fresh, as `Task.__init__` leaves it: rank -1, no machine, start and finish 0. On a workflow already scheduled, `rank_up` would keep stale successor ranks and `calc_est` would read stale predecessor finishes; the model does not follow those values.
- Heuristics.Pheft: requires at least one machine. With a task and no machines the source raises `ZeroDivisionError` at `int(ave / len(wf.env.machines))` (shadow/algorithms/heuristic.py:96).
- Heuristics.Pheft: requires every task fresh, for the same reason as `Heuristics.Heft`.
- Insertion.HeftStep: its contract is only the frame. The selection, start and makespan facts are stated by `Insertion.HeftCommitsEarliestFinish` and `Insertion.HeftFirstNodeAtZero`.
- Insertion.HeftPass: its own contract is only the schedule's shape; the results of the loop are proved by the `ScheduleInvariants` lemmas named in its row.
- Insertion.OctPass: the same as `Insertion.HeftPass`.
- Insertion.OctStep: its contract is only the frame. The selection, start and makespan facts are stated by `Insertion.OctCommitsLeastOptimisticFinish` and `Insertion.OctFirstNodeAtZero`.
- ScheduleInvariants.HeftPassNoOverlap: holds only when the first node in graph order is also first in the rank order, and only with positive runtimes. Otherwise the first node is put at time 0 without looking at the timeline, and can overlap tasks already placed.
- ScheduleInvariants.OctPassNoOverlap: the same condition as for HEFT.
- ScheduleInvariants.HeftPassRespectsPrecedence: covers only edges whose source comes earlier in the order and whose destination is not the first node, because the first node ignores its predecessors and the lemma holds for any order. For `heft`'s own order the first restriction matters only with a zero runtime or a negative data size: otherwise `Heuristics.Heft` proves the order topological and every edge into a task other than the first node met.
- ScheduleInvariants.OctPassRespectsPrecedence: the same restriction as for HEFT. No topological guarantee is proved for `pheft`'s order: the OCT rank is truncated to an integer and capped at 1000, so neighbouring tasks can tie.
- ScheduleInvariants.HeftMakespanBounded: an upper bound only, because the HEFT update rule can miss later finishes (see `HeftMakespanCanMissFinish`).
- EarliestStart.GapSearchEarliest: the minimality holds for positive runtimes only. A zero-length task fits in any empty gap.

=== FILE: earliest_start.dfy ===
/**
  `calc_est`: the earliest start of a task on a candidate machine. The ready
  time comes from the predecessors' finish times plus the edge cost when the
  predecessor sits on another machine; then the machine's allocation list is
  searched, gap by gap in timeline order, for the first idle interval the
  task fits in.
 */
module EarliestStart {
  import opened Wrappers
  import opened Workflow

  /** One allocation on a machine's timeline. */
  datatype Alloc = Alloc(task: nat, ast: int, aft: int)

  /** The scheduling fields of a task: machine (`None` before allocation),
      actual start and actual finish. */
  datatype Placement = Placement(machine: Option<nat>, ast: int, aft: int)

  /** The fields of a task nobody has scheduled yet. */
  const Unplaced: Placement := Placement(None, 0, 0)

  /** An idle interval; `end` is the sentinel -1 for the unbounded last gap. */
  datatype Gap = Gap(start: int, end: int)

  const Unbounded: int := -1

  // ---------------------------------------------------------------------
  // Ready time

  /** The communication-aware arrival time of predecessor edge `e` on machine `m`. */
  function Arrival(place: seq<Placement>, e: Edge, m: nat): (r: int)
    requires e.src < |place|
    ensures place[e.src].machine == Some(m) ==> r == place[e.src].aft
    ensures e.dataSize >= 0 ==> r >= place[e.src].aft
    ensures r <= place[e.src].aft + MaxOf(e.dataSize, 0)
  {
    place[e.src].aft + (if place[e.src].machine != Some(m) then e.dataSize else 0)
  }

  /** The maximum, seeded with 0, of the arrivals over the edges into `t`
      among the first `i` edges. */
  function ReadyUpTo(g: Graph, place: seq<Placement>, t: nat, m: nat, i: nat): int
    requires WellFormed(g) && |place| == |g.tasks| && i <= |g.edges|
  {
    if i == 0 then 0
    else
      var e := g.edges[i - 1];
      var prev := ReadyUpTo(g, place, t, m, i - 1);
      if e.dst == t then
        assert e in g.edges;
        var tmp := Arrival(place, e, m);
        if tmp >= prev then tmp else prev
      else prev
  }

  function ReadyTime(g: Graph, place: seq<Placement>, t: nat, m: nat): int
    requires WellFormed(g) && |place| == |g.tasks|
  {
    ReadyUpTo(g, place, t, m, |g.edges|)
  }

  lemma {:induction false} ReadyUpToIsMax(g: Graph, place: seq<Placement>, t: nat, m: nat, i: nat)
    requires WellFormed(g) && |place| == |g.tasks| && i <= |g.edges|
    ensures ReadyUpTo(g, place, t, m, i) >= 0
    ensures forall j :: 0 <= j < i && g.edges[j].dst == t ==>
      g.edges[j].src < |place| && ReadyUpTo(g, place, t, m, i) >= Arrival(place, g.edges[j], m)
    ensures ReadyUpTo(g, place, t, m, i) == 0 ||
      exists j :: 0 <= j < i && g.edges[j].dst == t && g.edges[j].src < |place| &&
        ReadyUpTo(g, place, t, m, i) == Arrival(place, g.edges[j], m)
  {
    if i > 0 {
      ReadyUpToIsMax(g, place, t, m, i - 1);
      assert g.edges[i - 1] in g.edges;
      assert forall j :: 0 <= j < i ==> g.edges[j] in g.edges;
    }
  }

  /** The ready time is the latest arrival over the predecessors (0 without
      any): at least every arrival, and one of them unless it is 0. */
  lemma ReadyTimeIsLatestArrival(g: Graph, place: seq<Placement>, t: nat, m: nat)
    requires WellFormed(g) && |place| == |g.tasks|
    ensures ReadyTime(g, place, t, m) >= 0
    ensures forall j :: 0 <= j < |g.edges| && g.edges[j].dst == t ==>
      g.edges[j].src < |place| && ReadyTime(g, place, t, m) >= Arrival(place, g.edges[j], m)
    ensures ReadyTime(g, place, t, m) == 0 ||
      exists j :: 0 <= j < |g.edges| && g.edges[j].dst == t && g.edges[j].src < |place| &&
        ReadyTime(g, place, t, m) == Arrival(place, g.edges[j], m)
  {
    ReadyUpToIsMax(g, place, t, m, |g.edges|);
  }

  // ---------------------------------------------------------------------
  // The idle gaps of a machine

  /** The gaps between consecutive allocations. */
  function Between(allocs: seq<Alloc>): (r: seq<Gap>)
    requires |allocs| > 0
    ensures |r| == |allocs| - 1
    ensures forall i :: 0 <= i < |r| ==> r[i] == Gap(allocs[i].aft, allocs[i + 1].ast)
  {
    seq(|allocs| - 1, i requires 0 <= i < |allocs| - 1 => Gap(allocs[i].aft, allocs[i + 1].ast))
  }

  function MaxOf(a: int, b: int): int {
    if a >= b then a else b
  }

  /** The gaps in timeline order: a leading gap from 0 unless the first
      allocation starts at 0, the gaps between consecutive allocations, and
      the unbounded gap after the last one. No allocation, no gap. */
  function Gaps(allocs: seq<Alloc>): (r: seq<Gap>)
    ensures r == [] <==> allocs == []
    ensures allocs != [] ==> |r| == |allocs| + (if allocs[0].ast != 0 then 1 else 0)
    ensures allocs != [] ==> r[|r| - 1] == Gap(allocs[|allocs| - 1].aft, Unbounded)
  {
    if allocs == [] then []
    else
      (if allocs[0].ast != 0 then [Gap(0, allocs[0].ast)] else [])
      + Between(allocs)
      + [Gap(allocs[|allocs| - 1].aft, Unbounded)]
  }

  /** The number of leading gaps: 1 when the first allocation starts late. */
  function Lead(allocs: seq<Alloc>): nat
    requires |allocs| > 0
  {
    if allocs[0].ast != 0 then 1 else 0
  }

  lemma GapsShape(allocs: seq<Alloc>)
    requires |allocs| > 0
    ensures |Gaps(allocs)| == Lead(allocs) + |allocs|
    ensures Lead(allocs) == 1 ==> Gaps(allocs)[0] == Gap(0, allocs[0].ast)
    ensures forall i :: 0 <= i < |allocs| - 1 ==>
      Gaps(allocs)[Lead(allocs) + i] == Gap(allocs[i].aft, allocs[i + 1].ast)
    ensures Gaps(allocs)[Lead(allocs) + |allocs| - 1] == Gap(allocs[|allocs| - 1].aft, Unbounded)
  {
    var lead: seq<Gap> := if allocs[0].ast != 0 then [Gap(0, allocs[0].ast)] else [];
    var mid := Between(allocs);
    var last := [Gap(allocs[|allocs| - 1].aft, Unbounded)];
    var gaps := lead + mid + last;
    assert Gaps(allocs) == gaps;
    assert |lead| == Lead(allocs);
    forall i | 0 <= i < |allocs| - 1
      ensures gaps[Lead(allocs) + i] == Gap(allocs[i].aft, allocs[i + 1].ast)
    {
      assert gaps[|lead| + i] == mid[i];
    }
    assert gaps[|lead| + |mid|] == last[0];
  }

  /** The four placement rules of one gap, tried in order. */
  function Rule(gap: Gap, est: int, duration: int): (r: Option<int>)
    ensures r.Some? ==> r.value == MaxOf(est, gap.start)
    ensures r.None? <==> 0 <= gap.end < MaxOf(est, gap.start) + duration
  {
    if est < gap.start && gap.start + duration <= gap.end then Some(gap.start)
    else if est >= gap.start && est + duration <= gap.end then Some(est)
    else if est >= gap.start && gap.end < 0 then Some(est)
    else if est < gap.start && gap.end < 0 then Some(gap.start)
    else None
  }

  /** The first gap that some rule accepts decides; with no gap at all the
      ready time is returned. */
  function FirstFit(gaps: seq<Gap>, est: int, duration: int): (r: int)
    ensures (forall k :: 0 <= k < |gaps| ==> Rule(gaps[k], est, duration).None?) ==> r == est
    ensures forall k ::
      (&& 0 <= k < |gaps| && Rule(gaps[k], est, duration).Some?
       && (forall i :: 0 <= i < k ==> Rule(gaps[i], est, duration).None?)) ==>
        r == Rule(gaps[k], est, duration).value
  {
    if gaps == [] then est
    else
      match Rule(gaps[0], est, duration)
      case Some(x) => x
      case None => FirstFit(gaps[1..], est, duration)
  }

  /** The gap search: never earlier than the ready time, and exactly the ready
      time on an empty machine. */
  function GapSearch(allocs: seq<Alloc>, est: int, duration: int): (r: int)
    ensures r >= est
    ensures allocs == [] ==> r == est
  {
    FirstFitAtLeast(Gaps(allocs), est, duration);
    FirstFit(Gaps(allocs), est, duration)
  }

  /** Behind a single allocation starting at 0, a task ready by that
      allocation's finish starts at the finish. */
  lemma GapSearchAfterSole(a: Alloc, est: int, duration: int)
    requires a.ast == 0 && est <= a.aft
    ensures GapSearch([a], est, duration) == a.aft
  {
    assert Gaps([a]) == [Gap(a.aft, Unbounded)];
  }

  lemma {:induction false} FirstFitAtLeast(gaps: seq<Gap>, est: int, duration: int)
    ensures FirstFit(gaps, est, duration) >= est
  {
    if gaps != [] && Rule(gaps[0], est, duration).None? {
      FirstFitAtLeast(gaps[1..], est, duration);
    }
  }

  // ---------------------------------------------------------------------
  // The gap search places the task in an idle interval

  /** A machine timeline: allocations sorted by start, none running backwards,
      none overlapping the next, all at non-negative times. */
  ghost predicate SortedTimeline(allocs: seq<Alloc>) {
    && (forall i :: 0 <= i < |allocs| ==> 0 <= allocs[i].ast <= allocs[i].aft)
    && (forall i, j :: 0 <= i < j < |allocs| ==> allocs[i].aft <= allocs[j].ast)
  }

  /** The interval [start, finish) does not overlap any allocation. */
  ghost predicate Free(allocs: seq<Alloc>, start: int, finish: int) {
    forall q :: 0 <= q < |allocs| ==> finish <= allocs[q].ast || allocs[q].aft <= start
  }

  /** A gap separates the allocations: each lies wholly before its start or
      wholly after its end; the unbounded gap lies after all of them. */
  ghost predicate Separates(allocs: seq<Alloc>, gap: Gap) {
    forall q :: 0 <= q < |allocs| ==>
      allocs[q].aft <= gap.start || (gap.end >= 0 && gap.end <= allocs[q].ast)
  }

  /** The `k`-th gap in closed form. */
  function GapAt(allocs: seq<Alloc>, k: nat): Gap
    requires |allocs| > 0 && k < Lead(allocs) + |allocs|
  {
    var f := Lead(allocs);
    if k < f then Gap(0, allocs[0].ast)
    else if k < f + |allocs| - 1 then Gap(allocs[k - f].aft, allocs[k - f + 1].ast)
    else Gap(allocs[|allocs| - 1].aft, Unbounded)
  }

  /** One gap of `Gaps`, in closed form. */
  lemma GapAtIndex(allocs: seq<Alloc>, k: nat)
    requires |allocs| > 0 && k < Lead(allocs) + |allocs|
    ensures |Gaps(allocs)| == Lead(allocs) + |allocs|
    ensures Gaps(allocs)[k] == GapAt(allocs, k)
  {
    var lead: seq<Gap> := if allocs[0].ast != 0 then [Gap(0, allocs[0].ast)] else [];
    var mid := Between(allocs);
    var last := [Gap(allocs[|allocs| - 1].aft, Unbounded)];
    assert Gaps(allocs) == lead + mid + last;
    ConcatAt(lead, mid, last, k);
  }

  /** Indexing into three concatenated sequences. */
  lemma ConcatAt<T>(a: seq<T>, b: seq<T>, c: seq<T>, k: nat)
    requires k < |a| + |b| + |c|
    ensures (a + b + c)[k] ==
      if k < |a| then a[k] else if k < |a| + |b| then b[k - |a|] else c[k - |a| - |b|]
  {
  }

  lemma GapsAt(allocs: seq<Alloc>)
    requires |allocs| > 0
    ensures |Gaps(allocs)| == Lead(allocs) + |allocs|
    ensures forall k :: 0 <= k < |Gaps(allocs)| ==> Gaps(allocs)[k] == GapAt(allocs, k)
  {
    GapAtIndex(allocs, 0);
    forall k | 0 <= k < |Gaps(allocs)| ensures Gaps(allocs)[k] == GapAt(allocs, k) {
      GapAtIndex(allocs, k);
    }
  }

  /** What a sorted timeline says about two allocations in order. */
  lemma InOrder(allocs: seq<Alloc>, p: nat, q: nat)
    requires SortedTimeline(allocs) && p <= q < |allocs|
    ensures allocs[p].ast <= allocs[q].ast && allocs[p].aft <= allocs[q].aft
    ensures p < q ==> allocs[p].aft <= allocs[q].ast
  {
  }

  lemma GapSeparates(allocs: seq<Alloc>, k: nat)
    requires SortedTimeline(allocs) && |allocs| > 0 && k < Lead(allocs) + |allocs|
    ensures Separates(allocs, GapAt(allocs, k))
  {
    var f := Lead(allocs);
    var n := |allocs|;
    forall q | 0 <= q < n
      ensures allocs[q].aft <= GapAt(allocs, k).start ||
        (GapAt(allocs, k).end >= 0 && GapAt(allocs, k).end <= allocs[q].ast)
    {
      if k < f {
        InOrder(allocs, 0, q);
      } else if k < f + n - 1 {
        var i := k - f;
        if q <= i {
          InOrder(allocs, q, i);
        } else {
          InOrder(allocs, i + 1, q);
        }
      } else {
        InOrder(allocs, q, n - 1);
      }
    }
  }

  lemma GapsSeparate(allocs: seq<Alloc>)
    requires SortedTimeline(allocs)
    ensures forall k :: 0 <= k < |Gaps(allocs)| ==> Separates(allocs, Gaps(allocs)[k])
  {
    if allocs != [] {
      GapsAt(allocs);
      forall k | 0 <= k < |Gaps(allocs)| ensures Separates(allocs, Gaps(allocs)[k]) {
        GapSeparates(allocs, k);
      }
    }
  }

  lemma {:induction false} FirstFitFree(allocs: seq<Alloc>, gaps: seq<Gap>, est: int, duration: int)
    requires forall k :: 0 <= k < |gaps| ==> Separates(allocs, gaps[k])
    requires gaps != [] && gaps[|gaps| - 1].end < 0
    ensures Free(allocs, FirstFit(gaps, est, duration), FirstFit(gaps, est, duration) + duration)
  {
    if Rule(gaps[0], est, duration).None? {
      assert |gaps| > 1;
      FirstFitFree(allocs, gaps[1..], est, duration);
    }
  }

  /** The start the gap search returns leaves the task's interval free of
      every allocation already on the machine. */
  lemma GapSearchFree(allocs: seq<Alloc>, est: int, duration: int)
    requires SortedTimeline(allocs)
    ensures Free(allocs, GapSearch(allocs, est, duration), GapSearch(allocs, est, duration) + duration)
  {
    if allocs != [] {
      GapsShape(allocs);
      GapsSeparate(allocs);
      FirstFitFree(allocs, Gaps(allocs), est, duration);
    }
  }

  // ---------------------------------------------------------------------
  // ... and in the earliest such interval

  /** Bounded gaps come before every later gap. */
  ghost predicate GapsOrdered(gaps: seq<Gap>) {
    forall i, j :: 0 <= i < j < |gaps| ==> 0 <= gaps[i].end && gaps[i].end <= gaps[j].start
  }

  /** A start `x` the task fits at within `gap`. */
  ghost predicate FitsIn(gap: Gap, x: int, duration: int) {
    gap.start <= x && (gap.end < 0 || x + duration <= gap.end)
  }

  lemma GapBefore(allocs: seq<Alloc>, i: nat, j: nat)
    requires SortedTimeline(allocs) && |allocs| > 0 && i < j < Lead(allocs) + |allocs|
    ensures 0 <= GapAt(allocs, i).end <= GapAt(allocs, j).start
  {
    var f := Lead(allocs);
    var n := |allocs|;
    var lo := if i < f then 0 else i - f + 1;
    var hi := if j < f + n - 1 then j - f else n - 1;
    assert j >= f;
    InOrder(allocs, lo, hi);
  }

  lemma GapsAreOrdered(allocs: seq<Alloc>)
    requires SortedTimeline(allocs)
    ensures GapsOrdered(Gaps(allocs))
  {
    if allocs != [] {
      GapsAt(allocs);
      var gaps := Gaps(allocs);
      forall i, j | 0 <= i < j < |gaps| ensures 0 <= gaps[i].end <= gaps[j].start {
        GapBefore(allocs, i, j);
      }
    }
  }

  /** The last allocation, from `i` on, that has finished by `x`, with every
      allocation before it finished too. */
  lemma {:induction false} LastFinishedBy(allocs: seq<Alloc>, x: int, i: nat) returns (j: nat)
    requires i < |allocs| && allocs[i].aft <= x
    ensures i <= j < |allocs| && allocs[j].aft <= x
    ensures j + 1 < |allocs| ==> x < allocs[j + 1].aft
    decreases |allocs| - i
  {
    if i + 1 < |allocs| && allocs[i + 1].aft <= x {
      j := LastFinishedBy(allocs, x, i + 1);
    } else {
      j := i;
    }
  }

  /** A free interval starting at a non-negative `x` fits in one gap, in
      closed form. */
  lemma FreeStartInGapAt(allocs: seq<Alloc>, x: int, duration: int) returns (k: nat)
    requires SortedTimeline(allocs) && allocs != []
    requires x >= 0 && duration > 0 && Free(allocs, x, x + duration)
    ensures k < Lead(allocs) + |allocs| && FitsIn(GapAt(allocs, k), x, duration)
  {
    var n := |allocs|;
    var f := Lead(allocs);
    assert x + duration <= allocs[0].ast || allocs[0].aft <= x;
    if x + duration <= allocs[0].ast {
      k := 0;
    } else {
      var i := LastFinishedBy(allocs, x, 0);
      if i + 1 < n {
        assert x + duration <= allocs[i + 1].ast;
        k := f + i;
      } else {
        k := f + n - 1;
      }
    }
  }

  /** A free interval starting at a non-negative `x` lies inside one gap. */
  lemma FreeStartInSomeGap(allocs: seq<Alloc>, x: int, duration: int) returns (k: nat)
    requires SortedTimeline(allocs) && allocs != []
    requires x >= 0 && duration > 0 && Free(allocs, x, x + duration)
    ensures k < |Gaps(allocs)| && FitsIn(Gaps(allocs)[k], x, duration)
  {
    k := FreeStartInGapAt(allocs, x, duration);
    GapsAt(allocs);
  }

  lemma OrderedAt(gaps: seq<Gap>, i: nat, j: nat)
    requires GapsOrdered(gaps) && i < j < |gaps|
    ensures 0 <= gaps[i].end <= gaps[j].start
  {
  }

  lemma OrderedTail(gaps: seq<Gap>)
    requires GapsOrdered(gaps) && gaps != []
    ensures GapsOrdered(gaps[1..])
  {
    forall i, j | 0 <= i < j < |gaps| - 1
      ensures 0 <= gaps[1..][i].end && gaps[1..][i].end <= gaps[1..][j].start
    {
      OrderedAt(gaps, i + 1, j + 1);
    }
  }

  /** A gap the task fits in at `x`, at or after the ready time, is accepted
      by one of the rules, at `x` or earlier. */
  lemma RuleAcceptsFit(gap: Gap, est: int, duration: int, x: int)
    requires duration > 0 && est <= x && FitsIn(gap, x, duration)
    ensures Rule(gap, est, duration).Some? && Rule(gap, est, duration).value <= x
  {
    if gap.end >= 0 {
      assert gap.start + duration <= x + duration <= gap.end;
    }
  }

  lemma {:induction false} FirstFitEarliest(gaps: seq<Gap>, est: int, duration: int, x: int, k: nat)
    requires GapsOrdered(gaps) && duration > 0 && est <= x
    requires k < |gaps| && FitsIn(gaps[k], x, duration)
    ensures FirstFit(gaps, est, duration) <= x
  {
    if k == 0 {
      RuleAcceptsFit(gaps[0], est, duration, x);
    } else if Rule(gaps[0], est, duration).None? {
      var rest := gaps[1..];
      assert rest[k - 1] == gaps[k];
      OrderedTail(gaps);
      FirstFitEarliest(rest, est, duration, x, k - 1);
    } else {
      OrderedAt(gaps, 0, k);
    }
  }

  /** The gap search returns the earliest start at or after the ready time
      whose interval is free: no free start between the ready time and the
      returned one exists. */
  lemma GapSearchEarliest(allocs: seq<Alloc>, est: int, duration: int, x: int)
    requires SortedTimeline(allocs) && duration > 0
    requires 0 <= est <= x && Free(allocs, x, x + duration)
    ensures GapSearch(allocs, est, duration) <= x
  {
    if allocs != [] {
      var k := FreeStartInSomeGap(allocs, x, duration);
      GapsAreOrdered(allocs);
      FirstFitEarliest(Gaps(allocs), est, duration, x, k);
    }
  }

  // ---------------------------------------------------------------------
  // calc_est

  /** The earliest start of task `t` on machine `m`, given the placements of
      the other tasks and the machine's allocation list. */
  function CalcEst(g: Graph, machines: nat, place: seq<Placement>, allocs: seq<Alloc>, t: nat, m: nat): (r: int)
    requires WellFormed(g) && HasRuntimes(g, machines) && |place| == |g.tasks|
    requires t < |g.tasks| && m < machines
    ensures r >= ReadyTime(g, place, t, m)
    ensures allocs == [] ==> r == ReadyTime(g, place, t, m)
  {
    GapSearch(allocs, ReadyTime(g, place, t, m), g.tasks[t].runtime[m])
  }

  /** On a sorted timeline and with a positive runtime, `calc_est` returns the
      least start at or after the ready time that overlaps no allocation. */
  lemma CalcEstIsEarliestFree(g: Graph, machines: nat, place: seq<Placement>, allocs: seq<Alloc>,
                              t: nat, m: nat, x: int)
    requires WellFormed(g) && HasRuntimes(g, machines) && |place| == |g.tasks|
    requires t < |g.tasks| && m < machines && g.tasks[t].runtime[m] > 0
    requires SortedTimeline(allocs)
    ensures Free(allocs, CalcEst(g, machines, place, allocs, t, m),
                 CalcEst(g, machines, place, allocs, t, m) + g.tasks[t].runtime[m])
    ensures ReadyTime(g, place, t, m) <= x && Free(allocs, x, x + g.tasks[t].runtime[m]) ==>
      CalcEst(g, machines, place, allocs, t, m) <= x
  {
    var est := ReadyTime(g, place, t, m);
    var d := g.tasks[t].runtime[m];
    GapSearchFree(allocs, est, d);
    ReadyTimeIsLatestArrival(g, place, t, m);
    if est <= x && Free(allocs, x, x + d) {
      GapSearchEarliest(allocs, est, d, x);
    }
  }
}

=== FILE: heuristic.dfy ===
/** The two list-scheduling heuristics end to end: rank the tasks, sort them
    by rank, and run the matching insertion policy over that order. */
module Heuristics {
  import opened Wrappers
  import opened Workflow
  import opened Ranking
  import opened EarliestStart
  import opened Insertion
  import opened ScheduleInvariants

  /** A rank-sorted order is a repetition-free one. */
  lemma SortedOrderIsDistinct(ranks: seq<real>, order: seq<nat>)
    requires InRange(ranks, order) && SortedByRank(ranks, order)
    ensures Distinct(order)
  {
    forall i, j | 0 <= i < j < |order| ensures order[i] != order[j] {
      assert Before(ranks, order[i], order[j]);
    }
  }

  /** The upward rank of every task, by task index. */
  ghost function UpwardRanks(g: Graph): (r: seq<real>)
    requires RankInputs(g)
    ensures |r| == |g.tasks| && forall i :: 0 <= i < |g.tasks| ==> r[i] == RankUp(g, i)
  {
    seq(|g.tasks|, i requires 0 <= i < |g.tasks| => RankUp(g, i))
  }

  /** The integer OCT rank of every task, as the real the rank sort compares. */
  ghost function OctRanks(g: Graph, machines: nat): (r: seq<real>)
    requires OctInputs(g, machines) && machines > 0
    ensures |r| == |g.tasks| && forall i :: 0 <= i < |g.tasks| ==> r[i] == OctRank(g, machines, i) as real
  {
    seq(|g.tasks|, i requires 0 <= i < |g.tasks| => OctRank(g, machines, i) as real)
  }

  /** With positive costs, an order sorted by descending upward rank lists
      every edge's source before its destination. */
  lemma HeftOrderIsTopological(g: Graph, order: seq<nat>)
    requires RankInputs(g) && PositiveCosts(g)
    requires InRange(UpwardRanks(g), order) && SortedByRank(UpwardRanks(g), order)
    ensures SourcesFirst(g, order)
  {
    forall j, p, q |
      && 0 <= j < |g.edges| && 0 <= p < |order| && 0 <= q < |order|
      && order[p] == g.edges[j].src && order[q] == g.edges[j].dst
      ensures p < q
    {
      RankDecreasesAlongEdges(g, g.edges[j]);
    }
  }

  /** Every task in the order is allocated, and the order holds every task,
      so every task is allocated. */
  lemma EveryTaskPlaced(n: nat, order: seq<nat>, place: seq<Placement>)
    requires |place| == n && forall i :: 0 <= i < n ==> i in order
    requires AllPlaced(place, order)
    ensures forall i :: 0 <= i < n ==> place[i].machine.Some?
  {
    forall i | 0 <= i < n ensures place[i].machine.Some? {
      assert i in order;
      var k :| 0 <= k < |order| && order[k] == i;
      assert place[order[k]].machine.Some?;
    }
  }

  /** `heft`: upward ranks, the descending stable rank sort, then the
      insertion policy. Every task is allocated, the order is by upward rank,
      the reported makespan is bounded by the latest finish, and every
      edge scheduled in order is honoured; with
      positive runtimes and non-negative data sizes the order is topological,
      so every edge into a task other than the first node is honoured. */
  method Heft(g: Graph, machines: nat) returns (makespan: int, order: seq<nat>, s: Schedule)
    requires RankInputs(g) && HasRuntimes(g, machines) && machines > 0 && Fresh(g)
    ensures |order| == |g.tasks| && forall i :: 0 <= i < |g.tasks| ==> i in order
    ensures InRange(UpwardRanks(g), order) && SortedByRank(UpwardRanks(g), order)
    ensures ScheduleInputs(g, machines, s) && OrderInRange(g, order)
    ensures s == HeftPass(g, machines, InitialSchedule(|g.tasks|, machines), order)
    ensures makespan == s.makespan && makespan <= MaxFinish(g, s.place, order)
    ensures forall i :: 0 <= i < |g.tasks| ==> s.place[i].machine.Some?
    ensures RespectsPrecedence(g, s.place, order)
    ensures PositiveCosts(g) ==> SourcesFirst(g, order) && HonoursEdges(g, s.place)
  {
    order := UpwardRankOrder(g);
    HeftOutcome(g, machines, order);
    s := HeftPass(g, machines, InitialSchedule(|g.tasks|, machines), order);
    makespan := s.makespan;
  }

  /** `upward_rank` followed by `sort_tasks('rank')`: every task once, by
      descending upward rank with ties in node order. */
  method UpwardRankOrder(g: Graph) returns (order: seq<nat>)
    requires RankInputs(g)
    ensures |order| == |g.tasks| && forall i :: 0 <= i < |g.tasks| ==> i in order
    ensures InRange(UpwardRanks(g), order) && SortedByRank(UpwardRanks(g), order)
  {
    var n := |g.tasks|;
    var unranked := seq(n, _ => Unranked);
    var ranks := UpwardRank(g, unranked, NodeOrder(n));
    EveryTaskRanked(g, ranks);
    order := SortTasks(ranks, "rank").value;
  }

  /** Everything `heft` promises about the pass over an order sorted by
      upward rank that holds every task. */
  lemma HeftOutcome(g: Graph, machines: nat, order: seq<nat>)
    requires RankInputs(g) && HasRuntimes(g, machines) && machines > 0
    requires |order| == |g.tasks| && forall i :: 0 <= i < |g.tasks| ==> i in order
    requires InRange(UpwardRanks(g), order) && SortedByRank(UpwardRanks(g), order)
    ensures OrderInRange(g, order)
    ensures var s := HeftPass(g, machines, InitialSchedule(|g.tasks|, machines), order);
      && ScheduleInputs(g, machines, s)
      && s.makespan <= MaxFinish(g, s.place, order)
      && (forall i :: 0 <= i < |g.tasks| ==> s.place[i].machine.Some?)
      && RespectsPrecedence(g, s.place, order)
      && (PositiveCosts(g) ==> SourcesFirst(g, order) && HonoursEdges(g, s.place))
  {
    SortedOrderIsDistinct(UpwardRanks(g), order);
    HeftPassFacts(g, machines, order);
    HeftHonoursEdges(g, machines, order);
  }

  /** Ranking every task in node order gives every task its upward rank. */
  lemma EveryTaskRanked(g: Graph, ranks: seq<real>)
    requires RankInputs(g) && RanksConsistent(g, ranks)
    requires forall k :: 0 <= k < |g.tasks| ==> ranks[NodeOrder(|g.tasks|)[k]] == RankUp(g, NodeOrder(|g.tasks|)[k])
    ensures ranks == UpwardRanks(g)
  {
    forall i | 0 <= i < |g.tasks| ensures ranks[i] == RankUp(g, i) {
      assert NodeOrder(|g.tasks|)[i] == i;
    }
  }

  /** With positive costs, the HEFT pass over the upward-rank order honours
      every edge into a task other than the first node. */
  lemma HeftHonoursEdges(g: Graph, machines: nat, order: seq<nat>)
    requires RankInputs(g) && HasRuntimes(g, machines) && machines > 0
    requires InRange(UpwardRanks(g), order) && SortedByRank(UpwardRanks(g), order)
    requires OrderInRange(g, order) && Distinct(order)
    requires forall i :: 0 <= i < |g.tasks| ==> i in order
    ensures PositiveCosts(g) ==>
      && SourcesFirst(g, order)
      && HonoursEdges(g, HeftPass(g, machines, InitialSchedule(|g.tasks|, machines), order).place)
  {
    if PositiveCosts(g) {
      HeftOrderIsTopological(g, order);
      HeftPassRespectsPrecedence(g, machines, order);
      PrecedenceHonoursEdges(g, HeftPass(g, machines, InitialSchedule(|g.tasks|, machines), order).place, order);
    }
  }

  lemma HeftPassFacts(g: Graph, machines: nat, order: seq<nat>)
    requires WellFormed(g) && HasRuntimes(g, machines) && machines > 0
    requires OrderInRange(g, order) && Distinct(order)
    requires forall i :: 0 <= i < |g.tasks| ==> i in order
    ensures var s := HeftPass(g, machines, InitialSchedule(|g.tasks|, machines), order);
      && s.makespan <= MaxFinish(g, s.place, order)
      && (forall i :: 0 <= i < |g.tasks| ==> s.place[i].machine.Some?)
      && RespectsPrecedence(g, s.place, order)
  {
    var s0 := InitialSchedule(|g.tasks|, machines);
    HeftMakespanBounded(g, machines, order);
    HeftPassPlacesAll(g, machines, s0, order);
    EveryTaskPlaced(|g.tasks|, order, HeftPass(g, machines, s0, order).place);
    HeftPassRespectsPrecedence(g, machines, order);
  }

  /** The upward ranks of `ThreeTasks` are its average runtimes, 60, 60 and 57.5. */
  lemma ThreeTasksRanks()
    ensures UpwardRanks(ThreeTasks()) == [60.0, 60.0, 57.5]
  {
    var g := ThreeTasks();
    RankUpExit(g, 0);
    RankUpExit(g, 1);
    RankUpExit(g, 2);
    assert Sum([10, 110]) == 120 && Sum([100, 20]) == 120 && Sum([15, 100]) == 115;
    var r := UpwardRanks(g);
    assert r[0] == 60.0 && r[1] == 60.0 && r[2] == 57.5;
  }

  /** Sorted by those ranks, the three tasks keep their node order: the two
      tasks of rank 60 by node order, then the one of rank 57.5. */
  lemma ThreeTasksOrder(order: seq<nat>)
    requires |order| == 3
    requires InRange([60.0, 60.0, 57.5], order) && SortedByRank([60.0, 60.0, 57.5], order)
    ensures order == [0, 1, 2]
  {
    assert Before([60.0, 60.0, 57.5], order[0], order[1]);
    assert Before([60.0, 60.0, 57.5], order[1], order[2]);
  }

  /** `heft` itself on `ThreeTasks` with two machines reports makespan 20
      while task 2 runs over [10, 25): the makespan update rule misses a
      later finish. */
  method HeftMissesLateFinish() returns (makespan: int, s: Schedule)
    ensures |s.place| == 3 && s.place[2] == Placement(Some(0), 10, 25)
    ensures makespan == 20 && makespan < s.place[2].aft
  {
    var g := ThreeTasks();
    var order;
    makespan, order, s := Heft(g, 2);
    ThreeTasksRanks();
    ThreeTasksOrder(order);
    HeftMakespanCanMissFinish(g, order);
  }

  /** `pheft`: the optimistic cost table, the tasks sorted by their integer
      OCT rank, then the OCT insertion policy. The reported makespan is
      exactly the latest finish among the tasks other than the first node in
      graph order, whose finish it leaves out (`OctFirstNodeAtZero`). */
  method Pheft(g: Graph, machines: nat)
    returns (makespan: int, order: seq<nat>, s: Schedule, table: map<(nat, nat), int>)
    requires OctInputs(g, machines) && machines > 0 && Fresh(g)
    ensures TableConsistent(g, machines, table) && OctTableFor(g, machines, table)
    ensures |order| == |g.tasks| && forall i :: 0 <= i < |g.tasks| ==> i in order
    ensures InRange(OctRanks(g, machines), order) && SortedByRank(OctRanks(g, machines), order)
    ensures ScheduleInputs(g, machines, s) && OrderInRange(g, order)
    ensures s == OctPass(g, machines, table, InitialSchedule(|g.tasks|, machines), order)
    ensures makespan == s.makespan && makespan == MaxFinish(g, s.place, order)
    ensures forall i :: 0 <= i < |g.tasks| ==> s.place[i].machine.Some?
    ensures RespectsPrecedence(g, s.place, order)
  {
    var n := |g.tasks|;
    var octRanks;
    table, octRanks := UpwardOctRank(g, machines);
    var ranks := seq(n, i requires 0 <= i < n => octRanks[i] as real);
    order := SortTasks(ranks, "rank").value;
    assert ranks == OctRanks(g, machines);
    SortedOrderIsDistinct(ranks, order);
    s := OctPass(g, machines, table, InitialSchedule(n, machines), order);
    makespan := s.makespan;
    OctPassFacts(g, machines, table, order);
  }

  lemma OctPassFacts(g: Graph, machines: nat, oct: map<(nat, nat), int>, order: seq<nat>)
    requires WellFormed(g) && HasRuntimes(g, machines) && machines > 0 && OctTableFor(g, machines, oct)
    requires OrderInRange(g, order) && Distinct(order)
    requires forall i :: 0 <= i < |g.tasks| ==> i in order
    ensures var s := OctPass(g, machines, oct, InitialSchedule(|g.tasks|, machines), order);
      && s.makespan == MaxFinish(g, s.place, order)
      && (forall i :: 0 <= i < |g.tasks| ==> s.place[i].machine.Some?)
      && RespectsPrecedence(g, s.place, order)
  {
    var s0 := InitialSchedule(|g.tasks|, machines);
    OctMakespanIsMaxFinish(g, machines, oct, order);
    OctPassPlacesAll(g, machines, oct, s0, order);
    EveryTaskPlaced(|g.tasks|, order, OctPass(g, machines, oct, s0, order).place);
    OctPassRespectsPrecedence(g, machines, oct, order);
  }
}

=== FILE: insertion.dfy ===
/**
  Insertion-based list scheduling: one pass over the rank-sorted tasks,
  choosing for each the machine with the least finish time (HEFT) or the
  least finish time plus OCT entry (PHEFT), committing its start and finish,
  inserting it into the machine's timeline and tracking the makespan.

  The first task in graph node order is special-cased by both policies: it
  goes to a machine at start time 0 without a gap search and never moves
  the makespan.
 */
module Insertion {
  import opened Wrappers
  import opened Workflow
  import opened Ranking
  import opened EarliestStart

  /** The scheduler's state: every task's placement, one allocation list per
      machine, and the makespan tracked so far. */
  datatype Schedule = Schedule(place: seq<Placement>, timeline: seq<seq<Alloc>>, makespan: int)

  ghost predicate ScheduleInputs(g: Graph, machines: nat, s: Schedule) {
    && WellFormed(g) && HasRuntimes(g, machines) && machines > 0
    && |s.place| == |g.tasks| && |s.timeline| == machines
  }

  /** Nothing placed, every timeline empty, makespan 0. */
  function InitialSchedule(tasks: nat, machines: nat): (s: Schedule)
    ensures |s.place| == tasks && |s.timeline| == machines && s.makespan == 0
    ensures forall i :: 0 <= i < tasks ==> s.place[i] == Unplaced
    ensures forall m :: 0 <= m < machines ==> s.timeline[m] == []
  {
    Schedule(seq(tasks, _ => Unplaced), seq(machines, _ => []), 0)
  }

  // ---------------------------------------------------------------------
  // Machine selection

  /** Python's `min` over the runtime items: the first machine of least runtime. */
  function FirstMinUpTo(values: seq<int>, i: nat): (m: nat)
    requires 0 < i <= |values|
    ensures m < i
  {
    if i == 1 then 0
    else
      var prev := FirstMinUpTo(values, i - 1);
      if values[i - 1] < values[prev] then i - 1 else prev
  }

  /** The first position of the least value. */
  ghost predicate IsFirstMin(values: seq<int>, m: nat) {
    && m < |values|
    && (forall k :: 0 <= k < |values| ==> values[m] <= values[k])
    && (forall k :: 0 <= k < m ==> values[m] < values[k])
  }

  lemma {:induction false} FirstMinUpToIsFirstMin(values: seq<int>, i: nat)
    requires 0 < i <= |values|
    ensures IsFirstMin(values[..i], FirstMinUpTo(values, i))
  {
    if i > 1 {
      FirstMinUpToIsFirstMin(values, i - 1);
      assert values[..i - 1] == values[..i][..i - 1];
    }
  }

  /** The selection loop of both policies: a running best seeded with the
      sentinel -1, replaced while it is the sentinel or by a strictly smaller
      value. Gives the best value and its machine. */
  function SelectUpTo(values: seq<int>, i: nat): (r: (int, nat))
    requires i <= |values|
    ensures i > 0 ==> r.1 < i && r.0 == values[r.1]
  {
    if i == 0 then (-1, 0)
    else
      var prev := SelectUpTo(values, i - 1);
      if prev.0 == -1 || values[i - 1] < prev.0 then (values[i - 1], i - 1) else prev
  }

  function Select(values: seq<int>): (r: (int, nat))
    requires |values| > 0
    ensures r.1 < |values| && r.0 == values[r.1]
  {
    SelectUpTo(values, |values|)
  }

  lemma {:induction false} SelectUpToIsFirstMin(values: seq<int>, i: nat)
    requires 0 < i <= |values|
    requires forall k :: 0 <= k < |values| ==> values[k] >= 0
    ensures IsFirstMin(values[..i], SelectUpTo(values, i).1)
  {
    if i > 1 {
      SelectUpToIsFirstMin(values, i - 1);
      assert values[..i - 1] == values[..i][..i - 1];
    }
  }

  /** With no value equal to the sentinel's -1 (all values non-negative), the
      selection is the first machine of least value: earlier machines win ties. */
  lemma SelectIsFirstMin(values: seq<int>)
    requires |values| > 0
    requires forall k :: 0 <= k < |values| ==> values[k] >= 0
    ensures IsFirstMin(values, Select(values).1)
  {
    SelectUpToIsFirstMin(values, |values|);
    assert values[..|values|] == values;
  }

  // ---------------------------------------------------------------------
  // Committing a task

  /** Where an allocation goes: after every allocation starting no later. */
  function InsertPos(allocs: seq<Alloc>, a: Alloc): (k: nat)
    ensures k <= |allocs|
    ensures forall i :: 0 <= i < k ==> allocs[i].ast <= a.ast
    ensures k < |allocs| ==> a.ast < allocs[k].ast
  {
    if allocs == [] || a.ast < allocs[0].ast then 0
    else 1 + InsertPos(allocs[1..], a)
  }

  /** `add_allocation`, as the scheduler relies on it: the allocation goes
      into the machine's list in start-time order. */
  function InsertByStart(allocs: seq<Alloc>, a: Alloc): (r: seq<Alloc>)
    ensures multiset(r) == multiset(allocs) + multiset{a}
    ensures |r| == |allocs| + 1
  {
    var k := InsertPos(allocs, a);
    assert allocs == allocs[..k] + allocs[k..];
    allocs[..k] + [a] + allocs[k..]
  }

  /** The `i`-th element after inserting `a`: the old elements before the
      insertion point, `a`, then the rest shifted by one. */
  lemma InsertedAt(allocs: seq<Alloc>, a: Alloc, i: nat)
    requires i <= |allocs|
    ensures var k := InsertPos(allocs, a);
      InsertByStart(allocs, a)[i] == if i < k then allocs[i] else if i == k then a else allocs[i - 1]
  {
  }

  /** Inserting a non-empty interval that overlaps nothing keeps a timeline sorted. */
  lemma InsertKeepsTimeline(allocs: seq<Alloc>, a: Alloc)
    requires SortedTimeline(allocs) && 0 <= a.ast < a.aft && Free(allocs, a.ast, a.aft)
    ensures SortedTimeline(InsertByStart(allocs, a))
  {
    var k := InsertPos(allocs, a);
    var r := InsertByStart(allocs, a);
    forall i | 0 <= i < |r| ensures 0 <= r[i].ast <= r[i].aft {
      InsertedAt(allocs, a, i);
    }
    forall i, j | 0 <= i < j < |r| ensures r[i].aft <= r[j].ast {
      InsertedAt(allocs, a, i);
      InsertedAt(allocs, a, j);
      if j < k {
        InOrder(allocs, i, j);
      } else if j == k {
        InOrder(allocs, i, i);
        assert allocs[i].ast <= a.ast;
      } else if i < k {
        InOrder(allocs, i, j - 1);
      } else if i == k {
        InOrder(allocs, k, j - 1);
        assert a.ast < allocs[k].ast;
      } else {
        InOrder(allocs, i - 1, j - 1);
      }
    }
  }

  /** Record task `t` on machine `m` over [ast, aft) and set the makespan. */
  function Commit(s: Schedule, t: nat, m: nat, ast: int, aft: int, makespan: int): (r: Schedule)
    requires t < |s.place| && m < |s.timeline|
    ensures |r.place| == |s.place| && |r.timeline| == |s.timeline| && r.makespan == makespan
    ensures r.place[t] == Placement(Some(m), ast, aft)
    ensures forall i :: 0 <= i < |s.place| && i != t ==> r.place[i] == s.place[i]
    ensures forall k :: 0 <= k < |s.timeline| && k != m ==> r.timeline[k] == s.timeline[k]
    ensures multiset(r.timeline[m]) == multiset(s.timeline[m]) + multiset{Alloc(t, ast, aft)}
    ensures r.timeline[m] == InsertByStart(s.timeline[m], Alloc(t, ast, aft))
  {
    Schedule(
      s.place[t := Placement(Some(m), ast, aft)],
      s.timeline[m := InsertByStart(s.timeline[m], Alloc(t, ast, aft))],
      makespan)
  }

  /** The first task in graph node order (compared by task id). */
  predicate IsFirstNode(g: Graph, t: nat)
    requires t < |g.tasks|
  {
    SameTask(g.tasks[t], g.tasks[0])
  }

  /** With unique ids, the first node is exactly the task at position 0. */
  lemma FirstNodeIsPositionZero(g: Graph, t: nat)
    requires UniqueIds(g.tasks) && t < |g.tasks|
    ensures IsFirstNode(g, t) <==> t == 0
  {
    if t != 0 {
      assert IdAt(g.tasks, t) != IdAt(g.tasks, 0);
    }
  }

  /** Earliest finish of `t` on each machine. */
  function Efts(g: Graph, machines: nat, s: Schedule, t: nat): (r: seq<int>)
    requires ScheduleInputs(g, machines, s) && t < |g.tasks|
    ensures |r| == machines
    ensures forall m :: 0 <= m < machines ==>
      r[m] == CalcEst(g, machines, s.place, s.timeline[m], t, m) + g.tasks[t].runtime[m]
  {
    seq(machines, m requires 0 <= m < machines =>
      CalcEst(g, machines, s.place, s.timeline[m], t, m) + g.tasks[t].runtime[m])
  }

  // ---------------------------------------------------------------------
  // HEFT: insertion_policy

  /** Where one step puts task `t`: machine, start, finish, and the new makespan. */
  datatype Decision = Decision(machine: nat, ast: int, aft: int, makespan: int)

  /** The choice made by one iteration of `insertion_policy`. */
  function HeftDecide(g: Graph, machines: nat, s: Schedule, t: nat): (d: Decision)
    requires ScheduleInputs(g, machines, s) && t < |g.tasks|
    ensures d.machine < machines
    ensures d.aft == d.ast + g.tasks[t].runtime[d.machine]
    ensures d.makespan == s.makespan || d.makespan == d.aft
  {
    var runtime := g.tasks[t].runtime;
    if IsFirstNode(g, t) then
      var m := FirstMinUpTo(runtime, machines);
      Decision(m, 0, runtime[m], s.makespan)
    else
      var best := Select(Efts(g, machines, s, t));
      var m := best.1;
      var aft := best.0;
      var ast := aft - runtime[m];
      Decision(m, ast, aft, if ast >= s.makespan then aft else s.makespan)
  }

  /** One iteration of `insertion_policy`. */
  function HeftStep(g: Graph, machines: nat, s: Schedule, t: nat): (r: Schedule)
    requires ScheduleInputs(g, machines, s) && t < |g.tasks|
    ensures ScheduleInputs(g, machines, r)
    ensures r.place[t].machine.Some?
    ensures forall i :: 0 <= i < |s.place| && i != t ==> r.place[i] == s.place[i]
  {
    var d := HeftDecide(g, machines, s, t);
    Commit(s, t, d.machine, d.ast, d.aft, d.makespan)
  }

  ghost predicate OrderInRange(g: Graph, order: seq<nat>) {
    forall k :: 0 <= k < |order| ==> order[k] < |g.tasks|
  }

  /** The scheduling pass over `order`, one committed task at a time. */
  function HeftPass(g: Graph, machines: nat, s: Schedule, order: seq<nat>): (r: Schedule)
    requires ScheduleInputs(g, machines, s) && OrderInRange(g, order)
    ensures ScheduleInputs(g, machines, r)
  {
    if order == [] then s
    else HeftStep(g, machines, HeftPass(g, machines, s, order[..|order| - 1]), order[|order| - 1])
  }

  ghost predicate NonNegativeRuntimes(g: Graph, machines: nat)
    requires HasRuntimes(g, machines)
  {
    forall i, m :: 0 <= i < |g.tasks| && 0 <= m < machines ==> g.tasks[i].runtime[m] >= 0
  }

  ghost predicate PositiveRuntimes(g: Graph, machines: nat)
    requires HasRuntimes(g, machines)
  {
    forall i, m :: 0 <= i < |g.tasks| && 0 <= m < machines ==> g.tasks[i].runtime[m] > 0
  }

  /** Every committed task other than the first node: the machine is the first one of
      least earliest finish time, the start is `calc_est` there (so finish =
      start + runtime), it is not before any predecessor's arrival, no other
      task's placement changes, and the makespan moves to the finish time
      exactly when the start is not before the old makespan. */
  lemma HeftCommitsEarliestFinish(g: Graph, machines: nat, s: Schedule, t: nat)
    requires ScheduleInputs(g, machines, s) && t < |g.tasks| && !IsFirstNode(g, t)
    requires NonNegativeRuntimes(g, machines)
    ensures var r := HeftStep(g, machines, s, t);
      && r.place[t].machine.Some?
      && var m := r.place[t].machine.value;
      && m < machines
      && IsFirstMin(Efts(g, machines, s, t), m)
      && r.place[t].ast == CalcEst(g, machines, s.place, s.timeline[m], t, m)
      && r.place[t].aft == r.place[t].ast + g.tasks[t].runtime[m]
      && (forall j :: 0 <= j < |g.edges| && g.edges[j].dst == t ==>
            g.edges[j].src < |s.place| && r.place[t].ast >= Arrival(s.place, g.edges[j], m))
      && (forall i :: 0 <= i < |g.tasks| && i != t ==> r.place[i] == s.place[i])
      && (r.place[t].ast >= s.makespan ==> r.makespan == r.place[t].aft)
      && (r.place[t].ast < s.makespan ==> r.makespan == s.makespan)
  {
    var efts := Efts(g, machines, s, t);
    forall m | 0 <= m < machines ensures efts[m] >= 0 {
      ReadyTimeIsLatestArrival(g, s.place, t, m);
    }
    SelectIsFirstMin(efts);
    var m := Select(efts).1;
    HeftDecideStartsAtEst(g, machines, s, t);
    ReadyTimeIsLatestArrival(g, s.place, t, m);
  }

  /** Whatever the signs of the runtimes, a HEFT task other than the first
      node starts at `calc_est` on the machine the selection picks: the
      selected value is always one of the candidates. */
  lemma HeftDecideStartsAtEst(g: Graph, machines: nat, s: Schedule, t: nat)
    requires ScheduleInputs(g, machines, s) && t < |g.tasks|
    requires !IsFirstNode(g, t)
    ensures var d := HeftDecide(g, machines, s, t);
      d.ast == CalcEst(g, machines, s.place, s.timeline[d.machine], t, d.machine)
  {
    var efts := Efts(g, machines, s, t);
    var m := Select(efts).1;
    assert efts[m] == CalcEst(g, machines, s.place, s.timeline[m], t, m) + g.tasks[t].runtime[m];
  }

  /** The first task in graph node order goes to the first machine of least
      runtime, from time 0, and leaves the makespan alone. */
  lemma HeftFirstNodeAtZero(g: Graph, machines: nat, s: Schedule, t: nat)
    requires ScheduleInputs(g, machines, s) && t < |g.tasks| && IsFirstNode(g, t)
    ensures var r := HeftStep(g, machines, s, t);
      && r.place[t].machine.Some?
      && var m := r.place[t].machine.value;
      && IsFirstMin(g.tasks[t].runtime, m)
      && r.place[t].ast == 0 && r.place[t].aft == g.tasks[t].runtime[m]
      && r.makespan == s.makespan
  {
    FirstMinUpToIsFirstMin(g.tasks[t].runtime, machines);
    assert g.tasks[t].runtime[..machines] == g.tasks[t].runtime;
  }

  // ---------------------------------------------------------------------
  // PHEFT: insertion_policy_oct

  ghost predicate OctTableFor(g: Graph, machines: nat, oct: map<(nat, nat), int>) {
    forall t, m :: 0 <= t < |g.tasks| && 0 <= m < machines ==> (t, m) in oct
  }

  /** Earliest finish plus OCT entry of `t` on each machine, for the given finish times. */
  function Oefts(g: Graph, machines: nat, oct: map<(nat, nat), int>, t: nat, efts: seq<int>): (r: seq<int>)
    requires OctTableFor(g, machines, oct) && t < |g.tasks| && |efts| == machines
    ensures |r| == machines
    ensures forall m :: 0 <= m < machines ==> r[m] == efts[m] + oct[(t, m)]
  {
    seq(machines, m requires 0 <= m < machines => efts[m] + oct[(t, m)])
  }

  /** The choice made by one iteration of `insertion_policy_oct`. The first
      node is timed by its runtime alone (start 0); every other task gets
      `calc_est`, since the source's test for predecessors is always true. */
  function OctDecide(g: Graph, machines: nat, oct: map<(nat, nat), int>, s: Schedule, t: nat): (d: Decision)
    requires ScheduleInputs(g, machines, s) && OctTableFor(g, machines, oct) && t < |g.tasks|
    ensures d.machine < machines
    ensures d.aft == d.ast + g.tasks[t].runtime[d.machine]
    ensures d.makespan == s.makespan || d.makespan == d.aft
  {
    var runtime := g.tasks[t].runtime;
    if IsFirstNode(g, t) then
      var m := Select(Oefts(g, machines, oct, t, runtime)).1;
      Decision(m, 0, runtime[m], s.makespan)
    else
      var efts := Efts(g, machines, s, t);
      var m := Select(Oefts(g, machines, oct, t, efts)).1;
      var aft := efts[m];
      Decision(m, aft - runtime[m], aft, if aft >= s.makespan then aft else s.makespan)
  }

  /** One iteration of `insertion_policy_oct`. */
  function OctStep(g: Graph, machines: nat, oct: map<(nat, nat), int>, s: Schedule, t: nat): (r: Schedule)
    requires ScheduleInputs(g, machines, s) && OctTableFor(g, machines, oct) && t < |g.tasks|
    ensures ScheduleInputs(g, machines, r)
    ensures r.place[t].machine.Some?
    ensures forall i :: 0 <= i < |s.place| && i != t ==> r.place[i] == s.place[i]
  {
    var d := OctDecide(g, machines, oct, s, t);
    Commit(s, t, d.machine, d.ast, d.aft, d.makespan)
  }

  /** The PHEFT scheduling pass over `order`, one committed task at a time. */
  function OctPass(g: Graph, machines: nat, oct: map<(nat, nat), int>, s: Schedule, order: seq<nat>): (r: Schedule)
    requires ScheduleInputs(g, machines, s) && OctTableFor(g, machines, oct) && OrderInRange(g, order)
    ensures ScheduleInputs(g, machines, r)
  {
    if order == [] then s
    else OctStep(g, machines, oct, OctPass(g, machines, oct, s, order[..|order| - 1]), order[|order| - 1])
  }

  /** Under PHEFT a task other than the first node starts at its earliest
      start on the machine chosen for it. */
  lemma OctDecideStartsAtEst(g: Graph, machines: nat, oct: map<(nat, nat), int>, s: Schedule, t: nat)
    requires ScheduleInputs(g, machines, s) && OctTableFor(g, machines, oct) && t < |g.tasks|
    requires !IsFirstNode(g, t)
    ensures var d := OctDecide(g, machines, oct, s, t);
      d.ast == CalcEst(g, machines, s.place, s.timeline[d.machine], t, d.machine)
  {
    var efts := Efts(g, machines, s, t);
    var m := Select(Oefts(g, machines, oct, t, efts)).1;
    assert efts[m] == CalcEst(g, machines, s.place, s.timeline[m], t, m) + g.tasks[t].runtime[m];
  }

  /** The first node under PHEFT: the machine is the first one of least
      runtime plus OCT entry, the task starts at 0 and ends after its runtime
      there, and the makespan is left as it was. */
  lemma OctFirstNodeAtZero(g: Graph, machines: nat, oct: map<(nat, nat), int>, s: Schedule, t: nat)
    requires ScheduleInputs(g, machines, s) && OctTableFor(g, machines, oct) && t < |g.tasks|
    requires IsFirstNode(g, t) && NonNegativeRuntimes(g, machines)
    requires forall m :: 0 <= m < machines ==> oct[(t, m)] >= 0
    ensures var r := OctStep(g, machines, oct, s, t);
      && r.place[t].machine.Some?
      && var m := r.place[t].machine.value;
      && IsFirstMin(Oefts(g, machines, oct, t, g.tasks[t].runtime), m)
      && r.place[t].ast == 0 && r.place[t].aft == g.tasks[t].runtime[m]
      && r.makespan == s.makespan
  {
    SelectIsFirstMin(Oefts(g, machines, oct, t, g.tasks[t].runtime));
  }

  /** Every committed task other than the first node: the machine is the first one of
      least finish time plus OCT entry, the start is `calc_est` there, and
      no other task's placement changes. */
  lemma OctCommitsLeastOptimisticFinish(g: Graph, machines: nat, oct: map<(nat, nat), int>, s: Schedule, t: nat)
    requires ScheduleInputs(g, machines, s) && OctTableFor(g, machines, oct) && t < |g.tasks|
    requires !IsFirstNode(g, t) && NonNegativeRuntimes(g, machines)
    requires forall m :: 0 <= m < machines ==> oct[(t, m)] >= 0
    ensures var r := OctStep(g, machines, oct, s, t);
      && r.place[t].machine.Some?
      && var m := r.place[t].machine.value;
      && m < machines
      && IsFirstMin(Oefts(g, machines, oct, t, Efts(g, machines, s, t)), m)
      && r.place[t].ast == CalcEst(g, machines, s.place, s.timeline[m], t, m)
      && r.place[t].aft == r.place[t].ast + g.tasks[t].runtime[m]
      && (forall i :: 0 <= i < |g.tasks| && i != t ==> r.place[i] == s.place[i])
  {
    var efts := Efts(g, machines, s, t);
    forall m | 0 <= m < machines ensures efts[m] >= 0 {
      ReadyTimeIsLatestArrival(g, s.place, t, m);
    }
    SelectIsFirstMin(Oefts(g, machines, oct, t, efts));
    OctDecideStartsAtEst(g, machines, oct, s, t);
  }
}

=== FILE: ranking.dfy ===
/**
  Task prioritisation: the upward rank of HEFT (Topcuoglu, Hariri and Wu,
  2002) and the Optimistic Cost Table of PHEFT (Arabnejad and Barbosa, 2014).

  Each rank is given twice: as a pure recursive definition over the DAG, and
  as the memoised computation the scheduler runs, which is proved to agree
  with the definition. The communication cost of an edge is its `dataSize`.
 */
module Ranking {
  import opened Wrappers
  import opened Workflow

  function MaxReal(a: real, b: real): real {
    if a >= b then a else b
  }

  function MaxInt(a: int, b: int): int {
    if a >= b then a else b
  }

  function MinInt(a: int, b: int): int {
    if a <= b then a else b
  }

  /** Inputs of the upward rank: a well-formed DAG whose tasks all have a
      non-empty runtime table (the average divides by its size). */
  ghost predicate RankInputs(g: Graph) {
    WellFormed(g) && forall i :: 0 <= i < |g.tasks| ==> |g.tasks[i].runtime| > 0
  }

  // ---------------------------------------------------------------------
  // Upward rank

  /** rank(t) = average runtime of t + the longest successor term. */
  function RankUp(g: Graph, t: nat): real
    requires RankInputs(g) && t < |g.tasks|
    decreases |g.tasks| - g.level[t], |g.edges| + 1
  {
    CalcAveRuntime(g.tasks[t]) + Longest(g, t, |g.edges|)
  }

  /** The maximum, seeded with 0, of `dataSize + rank(dst)` over the edges
      out of `t` among the first `i` edges. */
  function Longest(g: Graph, t: nat, i: nat): real
    requires RankInputs(g) && t < |g.tasks| && i <= |g.edges|
    decreases |g.tasks| - g.level[t], i
  {
    if i == 0 then 0.0
    else
      var e := g.edges[i - 1];
      if e.src == t then
        assert e in g.edges;
        MaxReal(Longest(g, t, i - 1), e.dataSize as real + RankUp(g, e.dst))
      else Longest(g, t, i - 1)
  }

  lemma {:induction false} LongestDominates(g: Graph, t: nat, i: nat, j: nat)
    requires RankInputs(g) && t < |g.tasks| && j < i <= |g.edges| && g.edges[j].src == t
    ensures g.edges[j] in g.edges
    ensures Longest(g, t, i) >= g.edges[j].dataSize as real + RankUp(g, g.edges[j].dst)
  {
    if j < i - 1 {
      LongestDominates(g, t, i - 1, j);
    }
  }

  lemma {:induction false} LongestAttained(g: Graph, t: nat, i: nat)
    requires RankInputs(g) && t < |g.tasks| && i <= |g.edges|
    ensures Longest(g, t, i) >= 0.0
    ensures Longest(g, t, i) == 0.0 ||
      exists j :: 0 <= j < i && g.edges[j].src == t && g.edges[j] in g.edges &&
        Longest(g, t, i) == g.edges[j].dataSize as real + RankUp(g, g.edges[j].dst)
  {
    if i > 0 {
      LongestAttained(g, t, i - 1);
    }
  }

  /** An exit task's rank is its average runtime. */
  lemma RankUpExit(g: Graph, t: nat)
    requires RankInputs(g) && t < |g.tasks|
    requires forall e :: e in g.edges ==> e.src != t
    ensures RankUp(g, t) == CalcAveRuntime(g.tasks[t])
  {
    LongestAttained(g, t, |g.edges|);
  }

  /** The rank recurrence: rank(t) is at least average runtime + dataSize +
      rank(s) for every successor s, and it is attained by one of them unless
      it is just the average runtime (the maximum is seeded with 0). */
  lemma RankUpRecurrence(g: Graph, t: nat)
    requires RankInputs(g) && t < |g.tasks|
    ensures forall j :: 0 <= j < |g.edges| && g.edges[j].src == t ==>
      RankUp(g, t) >= CalcAveRuntime(g.tasks[t]) + g.edges[j].dataSize as real + RankUp(g, g.edges[j].dst)
    ensures RankUp(g, t) >= CalcAveRuntime(g.tasks[t])
    ensures RankUp(g, t) == CalcAveRuntime(g.tasks[t]) ||
      exists j :: 0 <= j < |g.edges| && g.edges[j].src == t &&
        RankUp(g, t) == CalcAveRuntime(g.tasks[t]) + g.edges[j].dataSize as real + RankUp(g, g.edges[j].dst)
  {
    forall j | 0 <= j < |g.edges| && g.edges[j].src == t
      ensures RankUp(g, t) >= CalcAveRuntime(g.tasks[t]) + g.edges[j].dataSize as real + RankUp(g, g.edges[j].dst)
    {
      LongestDominates(g, t, |g.edges|, j);
    }
    LongestAttained(g, t, |g.edges|);
  }

  /** Every runtime positive and every data size non-negative. */
  ghost predicate PositiveCosts(g: Graph) {
    && (forall i, m :: 0 <= i < |g.tasks| && 0 <= m < |g.tasks[i].runtime| ==> g.tasks[i].runtime[m] > 0)
    && (forall e :: e in g.edges ==> e.dataSize >= 0)
  }

  /** With positive costs the upward rank strictly decreases along every
      edge, so an order sorted by descending rank lists each edge's source
      before its destination. */
  lemma RankDecreasesAlongEdges(g: Graph, e: Edge)
    requires RankInputs(g) && PositiveCosts(g) && e in g.edges
    ensures e.src < |g.tasks| && e.dst < |g.tasks|
    ensures RankUp(g, e.src) > RankUp(g, e.dst)
  {
    var j :| 0 <= j < |g.edges| && g.edges[j] == e;
    RankUpRecurrence(g, e.src);
    AveRuntimePositive(g.tasks[e.src]);
  }

  /** Every rank entry is either still the sentinel or already the true rank. */
  ghost predicate RanksConsistent(g: Graph, ranks: seq<real>)
    requires RankInputs(g)
  {
    |ranks| == |g.tasks| &&
    forall i :: 0 <= i < |ranks| ==> ranks[i] == Unranked || ranks[i] == RankUp(g, i)
  }

  /** `rank_up`: ranks `t`, recursing only into successors still carrying the
      sentinel. Entries already set are never changed (re-ranking `t` itself
      writes back the same value). */
  method RankUpMemo(g: Graph, ranks: seq<real>, t: nat) returns (r: seq<real>)
    requires RankInputs(g) && t < |g.tasks| && RanksConsistent(g, ranks)
    ensures RanksConsistent(g, r)
    ensures r[t] == RankUp(g, t)
    ensures forall i :: 0 <= i < |ranks| && ranks[i] != Unranked ==> r[i] == ranks[i]
    decreases |g.tasks| - g.level[t]
  {
    var longest := 0.0;
    r := ranks;
    var i := 0;
    while i < |g.edges|
      invariant 0 <= i <= |g.edges|
      invariant RanksConsistent(g, r)
      invariant longest == Longest(g, t, i)
      invariant forall k :: 0 <= k < |ranks| && ranks[k] != Unranked ==> r[k] == ranks[k]
    {
      var e := g.edges[i];
      assert e in g.edges;
      if e.src == t {
        if r[e.dst] == Unranked {
          r := RankUpMemo(g, r, e.dst);
        }
        longest := MaxReal(longest, e.dataSize as real + r[e.dst]);
      }
      i := i + 1;
    }
    r := r[t := CalcAveRuntime(g.tasks[t]) + longest];
  }

  /** `upward_rank`: `rank_up` on every task of `order` (the source walks the
      tasks in id order; any order gives the same ranks). */
  method UpwardRank(g: Graph, ranks: seq<real>, order: seq<nat>) returns (r: seq<real>)
    requires RankInputs(g) && RanksConsistent(g, ranks)
    requires forall k :: 0 <= k < |order| ==> order[k] < |g.tasks|
    ensures RanksConsistent(g, r)
    ensures forall k :: 0 <= k < |order| ==> r[order[k]] == RankUp(g, order[k])
  {
    r := ranks;
    var k := 0;
    while k < |order|
      invariant 0 <= k <= |order|
      invariant RanksConsistent(g, r)
      invariant forall q :: 0 <= q < k ==> r[order[q]] == RankUp(g, order[q])
    {
      r := RankUpMemo(g, r, order[k]);
      k := k + 1;
    }
  }

  // ---------------------------------------------------------------------
  // Optimistic Cost Table

  /** The seed of the minimum over machines; it caps every table entry. */
  const OctCap: int := 1000

  /** Inputs of the OCT: a well-formed DAG with one runtime per machine. */
  ghost predicate OctInputs(g: Graph, machines: nat) {
    WellFormed(g) && HasRuntimes(g, machines)
  }

  /** OCT[t, pk]: the maximum, seeded with 0, over the successors of `t` of
      the successor's cheapest continuation. */
  function Oct(g: Graph, machines: nat, t: nat, pk: nat): (r: int)
    requires OctInputs(g, machines) && t < |g.tasks|
    ensures 0 <= r <= OctCap
    decreases |g.tasks| - g.level[t], |g.edges| + 1, 0
  {
    OctMax(g, machines, t, pk, |g.edges|)
  }

  /** The maximum over the edges out of `t` among the first `i` edges. */
  function OctMax(g: Graph, machines: nat, t: nat, pk: nat, i: nat): (r: int)
    requires OctInputs(g, machines) && t < |g.tasks| && i <= |g.edges|
    ensures 0 <= r <= OctCap
    decreases |g.tasks| - g.level[t], i, machines + 2
  {
    if i == 0 then 0
    else if g.edges[i - 1].src == t then
      MaxInt(OctMax(g, machines, t, pk, i - 1), OctMin(g, machines, t, pk, i - 1, machines))
    else OctMax(g, machines, t, pk, i - 1)
  }

  /** The minimum, seeded with `OctCap`, over the first `m` machines of the
      continuation term of edge `j`. */
  function OctMin(g: Graph, machines: nat, t: nat, pk: nat, j: nat, m: nat): (r: int)
    requires OctInputs(g, machines) && t < |g.tasks| && j < |g.edges| && g.edges[j].src == t
    requires m <= machines
    ensures r <= OctCap
    decreases |g.tasks| - g.level[t], j, m + 1
  {
    if m == 0 then OctCap
    else MinInt(OctMin(g, machines, t, pk, j, m - 1), OctTerm(g, machines, t, pk, j, m - 1))
  }

  /** Continuing edge `j` on machine `m`: the successor's table entry, its
      runtime there, and the edge's cost unless `m` is `pk`. */
  function OctTerm(g: Graph, machines: nat, t: nat, pk: nat, j: nat, m: nat): int
    requires OctInputs(g, machines) && t < |g.tasks| && j < |g.edges| && g.edges[j].src == t
    requires m < machines
    decreases |g.tasks| - g.level[t], j, 0
  {
    var e := g.edges[j];
    assert e in g.edges;
    Oct(g, machines, e.dst, m) + g.tasks[e.dst].runtime[m] + (if m != pk then e.dataSize else 0)
  }

  lemma {:induction false} OctMinIsMin(g: Graph, machines: nat, t: nat, pk: nat, j: nat, m: nat)
    requires OctInputs(g, machines) && t < |g.tasks| && j < |g.edges| && g.edges[j].src == t
    requires m <= machines
    ensures forall k :: 0 <= k < m ==> OctMin(g, machines, t, pk, j, m) <= OctTerm(g, machines, t, pk, j, k)
    ensures OctMin(g, machines, t, pk, j, m) == OctCap ||
      (exists k :: 0 <= k < m && OctMin(g, machines, t, pk, j, m) == OctTerm(g, machines, t, pk, j, k))
  {
    if m > 0 {
      OctMinIsMin(g, machines, t, pk, j, m - 1);
      var prev := OctMin(g, machines, t, pk, j, m - 1);
      var term := OctTerm(g, machines, t, pk, j, m - 1);
      if prev <= term {
        if prev != OctCap {
          var k :| 0 <= k < m - 1 && prev == OctTerm(g, machines, t, pk, j, k);
          assert OctMin(g, machines, t, pk, j, m) == OctTerm(g, machines, t, pk, j, k);
        }
      } else {
        var k: nat := m - 1;
        assert 0 <= k < m && OctMin(g, machines, t, pk, j, m) == OctTerm(g, machines, t, pk, j, k);
        assert exists k' :: 0 <= k' < m && OctMin(g, machines, t, pk, j, m) == OctTerm(g, machines, t, pk, j, k');
      }
    }
  }

  lemma {:induction false} OctMaxIsMax(g: Graph, machines: nat, t: nat, pk: nat, i: nat)
    requires OctInputs(g, machines) && t < |g.tasks| && i <= |g.edges|
    ensures forall j :: 0 <= j < i && g.edges[j].src == t ==>
      OctMax(g, machines, t, pk, i) >= OctMin(g, machines, t, pk, j, machines)
    ensures OctMax(g, machines, t, pk, i) == 0 ||
      (exists j :: 0 <= j < i && g.edges[j].src == t &&
        OctMax(g, machines, t, pk, i) == OctMin(g, machines, t, pk, j, machines))
  {
    if i > 0 {
      OctMaxIsMax(g, machines, t, pk, i - 1);
    }
  }

  /** An exit task costs 0 on every machine. */
  lemma OctExit(g: Graph, machines: nat, t: nat, pk: nat)
    requires OctInputs(g, machines) && t < |g.tasks|
    requires forall e :: e in g.edges ==> e.src != t
    ensures Oct(g, machines, t, pk) == 0
  {
    OctMaxIsMax(g, machines, t, pk, |g.edges|);
  }

  /** The minimum over machines for edge `j` is its seed or one of its terms. */
  ghost predicate MinAttained(g: Graph, machines: nat, t: nat, pk: nat, j: nat)
    requires OctInputs(g, machines) && t < |g.tasks| && j < |g.edges| && g.edges[j].src == t
  {
    OctMin(g, machines, t, pk, j, machines) == OctCap ||
    exists m :: 0 <= m < machines && OctMin(g, machines, t, pk, j, machines) == OctTerm(g, machines, t, pk, j, m)
  }

  /** The OCT recurrence: OCT[t, pk] is the largest, over successors, of the
      smallest continuation cost over machines, where the edge cost is paid
      only off `pk`; with the max seeded at 0 and the min at `OctCap`. */
  lemma OctRecurrence(g: Graph, machines: nat, t: nat, pk: nat)
    requires OctInputs(g, machines) && t < |g.tasks|
    ensures forall j :: 0 <= j < |g.edges| && g.edges[j].src == t ==>
      Oct(g, machines, t, pk) >= OctMin(g, machines, t, pk, j, machines)
    ensures forall j :: 0 <= j < |g.edges| && g.edges[j].src == t ==>
      forall m :: 0 <= m < machines ==>
        OctMin(g, machines, t, pk, j, machines) <= OctTerm(g, machines, t, pk, j, m)
    ensures Oct(g, machines, t, pk) == 0 ||
      (exists j :: 0 <= j < |g.edges| && g.edges[j].src == t &&
        Oct(g, machines, t, pk) == OctMin(g, machines, t, pk, j, machines))
    ensures forall j :: 0 <= j < |g.edges| && g.edges[j].src == t ==> MinAttained(g, machines, t, pk, j)
  {
    OctMaxIsMax(g, machines, t, pk, |g.edges|);
    forall j | 0 <= j < |g.edges| && g.edges[j].src == t
      ensures forall m :: 0 <= m < machines ==>
        OctMin(g, machines, t, pk, j, machines) <= OctTerm(g, machines, t, pk, j, m)
    {
      OctMinIsMin(g, machines, t, pk, j, machines);
    }
    forall j | 0 <= j < |g.edges| && g.edges[j].src == t
      ensures MinAttained(g, machines, t, pk, j)
    {
      OctMinIsMin(g, machines, t, pk, j, machines);
      if OctMin(g, machines, t, pk, j, machines) != OctCap {
        var m :| 0 <= m < machines && OctMin(g, machines, t, pk, j, machines) == OctTerm(g, machines, t, pk, j, m);
      }
    }
  }

  /** Every memoised entry holds the table value for its (task, machine) key. */
  ghost predicate TableConsistent(g: Graph, machines: nat, table: map<(nat, nat), int>)
    requires OctInputs(g, machines)
  {
    forall key :: key in table ==> key.0 < |g.tasks| && table[key] == Oct(g, machines, key.0, key.1)
  }

  /** `rank_oct`: fills OCT[t, pk], computing a successor's entry for a
      machine only when the table does not hold it yet. */
  method RankOct(g: Graph, machines: nat, table: map<(nat, nat), int>, t: nat, pk: nat)
    returns (r: map<(nat, nat), int>)
    requires OctInputs(g, machines) && t < |g.tasks| && TableConsistent(g, machines, table)
    ensures TableConsistent(g, machines, r)
    ensures table.Keys <= r.Keys
    ensures (t, pk) in r && r[(t, pk)] == Oct(g, machines, t, pk)
    decreases |g.tasks| - g.level[t]
  {
    var maxSuccessor := 0;
    r := table;
    var i := 0;
    while i < |g.edges|
      invariant 0 <= i <= |g.edges|
      invariant TableConsistent(g, machines, r) && table.Keys <= r.Keys
      invariant maxSuccessor == OctMax(g, machines, t, pk, i)
    {
      var e := g.edges[i];
      assert e in g.edges;
      if e.src == t {
        var minMachine := OctCap;
        var m := 0;
        while m < machines
          invariant 0 <= m <= machines
          invariant TableConsistent(g, machines, r) && table.Keys <= r.Keys
          invariant minMachine == OctMin(g, machines, t, pk, i, m)
        {
          if (e.dst, m) !in r {
            r := RankOct(g, machines, r, e.dst, m);
          }
          var commCost := if m != pk then e.dataSize else 0;
          var octVal := r[(e.dst, m)] + g.tasks[e.dst].runtime[m] + commCost;
          minMachine := MinInt(minMachine, octVal);
          m := m + 1;
        }
        maxSuccessor := MaxInt(maxSuccessor, minMachine);
      }
      i := i + 1;
    }
    r := r[(t, pk) := maxSuccessor];
  }

  /** The sum of a task's table entries over the first `m` machines. */
  function OctRowSum(g: Graph, machines: nat, t: nat, m: nat): (r: int)
    requires OctInputs(g, machines) && t < |g.tasks| && m <= machines
    ensures 0 <= r <= OctCap * m
  {
    if m == 0 then 0 else OctRowSum(g, machines, t, m - 1) + Oct(g, machines, t, m - 1)
  }

  /** The scalar OCT rank: the mean of the task's row, truncated to an integer
      (the row is non-negative, so truncation is the floor). */
  function OctRank(g: Graph, machines: nat, t: nat): (r: int)
    requires OctInputs(g, machines) && t < |g.tasks| && machines > 0
    ensures 0 <= r <= OctCap
    ensures r * machines <= OctRowSum(g, machines, t, machines) < (r + 1) * machines
  {
    FloorDiv(OctRowSum(g, machines, t, machines), machines, OctCap);
    OctRowSum(g, machines, t, machines) / machines
  }

  /** Integer division of a sum in `[0, cap * n]` by `n > 0` is its floor. */
  lemma FloorDiv(sum: int, n: int, cap: int)
    requires n > 0 && 0 <= sum <= cap * n
    ensures 0 <= sum / n <= cap
    ensures (sum / n) * n <= sum < (sum / n + 1) * n
  {
    var q := sum / n;
    var rem := sum % n;
    assert sum == q * n + rem && 0 <= rem < n;
    assert (q + 1) * n == q * n + n;
    NonPositiveFactor(q - cap, n);
    NonPositiveFactor(-1 - q, n);
  }

  /** A product with a positive factor is non-positive only if the other is. */
  lemma NonPositiveFactor(x: int, n: int)
    requires n > 0 && x * n <= 0
    ensures x <= 0
  {
  }

  /** `upward_oct_rank`: fills the whole table, machine by machine, then gives
      each task the truncated mean of its row. The source walks the tasks in
      reverse `tid` order and the model in reverse position order; the order
      does not matter, because `RankOct` only ever adds the exact OCT value of
      an entry (`TableConsistent`), so the completed table is the same. */
  method UpwardOctRank(g: Graph, machines: nat) returns (table: map<(nat, nat), int>, ranks: seq<int>)
    requires OctInputs(g, machines) && machines > 0
    ensures TableConsistent(g, machines, table)
    ensures forall t, m :: 0 <= t < |g.tasks| && 0 <= m < machines ==> (t, m) in table
    ensures |ranks| == |g.tasks|
    ensures forall t :: 0 <= t < |g.tasks| ==> ranks[t] == OctRank(g, machines, t)
  {
    table := map[];
    var pk := 0;
    while pk < machines
      invariant 0 <= pk <= machines
      invariant TableConsistent(g, machines, table)
      invariant forall t, m :: 0 <= t < |g.tasks| && 0 <= m < pk ==> (t, m) in table
    {
      var k := |g.tasks|;
      while k > 0
        invariant 0 <= k <= |g.tasks|
        invariant TableConsistent(g, machines, table)
        invariant forall t, m :: 0 <= t < |g.tasks| && 0 <= m < pk ==> (t, m) in table
        invariant forall t :: k <= t < |g.tasks| ==> (t, pk) in table
      {
        k := k - 1;
        table := RankOct(g, machines, table, k, pk);
      }
      pk := pk + 1;
    }
    ranks := [];
    while |ranks| < |g.tasks|
      invariant |ranks| <= |g.tasks|
      invariant forall t :: 0 <= t < |ranks| ==> ranks[t] == OctRank(g, machines, t)
    {
      var t := |ranks|;
      var ave := 0;
      var m := 0;
      while m < machines
        invariant 0 <= m <= machines
        invariant ave == OctRowSum(g, machines, t, m)
      {
        ave := ave + table[(t, m)];
        m := m + 1;
      }
      ranks := ranks + [ave / machines];
    }
  }
}

=== FILE: schedule_invariants.dfy ===
/** Whole-pass properties of the two insertion policies: overlap-freedom of
    the machine timelines and the makespan each pass reports. */
module ScheduleInvariants {
  import opened Wrappers
  import opened Workflow
  import opened EarliestStart
  import opened Insertion

  // ---------------------------------------------------------------------
  // The timelines stay sorted and free of overlaps

  ghost predicate ValidTimelines(s: Schedule) {
    forall m :: 0 <= m < |s.timeline| ==> SortedTimeline(s.timeline[m])
  }

  /** A task other than the first node is inserted into a free interval, so
      every timeline stays sorted and overlap-free. */
  lemma HeftStepKeepsTimelines(g: Graph, machines: nat, s: Schedule, t: nat)
    requires ScheduleInputs(g, machines, s) && t < |g.tasks| && !IsFirstNode(g, t)
    requires PositiveRuntimes(g, machines) && ValidTimelines(s)
    ensures ValidTimelines(HeftStep(g, machines, s, t))
  {
    var d := HeftDecide(g, machines, s, t);
    EstSlotIsFree(g, machines, s, t, d.machine);
    CommitKeepsTimelines(s, t, d.machine, d.ast, d.aft, d.makespan);
  }

  /** The earliest start found on machine `m` opens a free interval as long
      as the task's runtime there. */
  lemma EstSlotIsFree(g: Graph, machines: nat, s: Schedule, t: nat, m: nat)
    requires ScheduleInputs(g, machines, s) && t < |g.tasks| && m < machines
    requires PositiveRuntimes(g, machines) && ValidTimelines(s)
    ensures var est := CalcEst(g, machines, s.place, s.timeline[m], t, m);
      0 <= est && Free(s.timeline[m], est, est + g.tasks[t].runtime[m])
  {
    CalcEstIsEarliestFree(g, machines, s.place, s.timeline[m], t, m, 0);
    ReadyTimeIsLatestArrival(g, s.place, t, m);
  }

  /** Committing into a free interval keeps every timeline sorted. */
  lemma CommitKeepsTimelines(s: Schedule, t: nat, m: nat, ast: int, aft: int, makespan: int)
    requires t < |s.place| && m < |s.timeline| && ValidTimelines(s)
    requires 0 <= ast < aft && Free(s.timeline[m], ast, aft)
    ensures ValidTimelines(Commit(s, t, m, ast, aft, makespan))
  {
    InsertKeepsTimeline(s.timeline[m], Alloc(t, ast, aft));
  }

  /** The first node lands at time 0 on an empty timeline while nothing else
      has been placed yet. */
  lemma FirstStepKeepsTimelines(g: Graph, machines: nat, s: Schedule, t: nat)
    requires ScheduleInputs(g, machines, s) && t < |g.tasks| && IsFirstNode(g, t)
    requires PositiveRuntimes(g, machines)
    requires forall m :: 0 <= m < machines ==> s.timeline[m] == []
    ensures ValidTimelines(HeftStep(g, machines, s, t))
  {
    var m := FirstMinUpTo(g.tasks[t].runtime, machines);
    CommitKeepsTimelines(s, t, m, 0, g.tasks[t].runtime[m], s.makespan);
  }

  /** When the first node in graph order is also the first task of the pass
      (and appears nowhere else), HEFT never overlaps two tasks on a machine. */
  lemma {:induction false} HeftPassNoOverlap(g: Graph, machines: nat, order: seq<nat>)
    requires WellFormed(g) && HasRuntimes(g, machines) && machines > 0
    requires PositiveRuntimes(g, machines) && OrderInRange(g, order)
    requires |order| > 0 ==> IsFirstNode(g, order[0])
    requires forall k :: 0 < k < |order| ==> !IsFirstNode(g, order[k])
    ensures ValidTimelines(HeftPass(g, machines, InitialSchedule(|g.tasks|, machines), order))
  {
    var s0 := InitialSchedule(|g.tasks|, machines);
    if |order| == 1 {
      assert order[..0] == [];
      FirstStepKeepsTimelines(g, machines, s0, order[0]);
    } else if |order| > 1 {
      var init := order[..|order| - 1];
      HeftPassNoOverlap(g, machines, init);
      HeftStepKeepsTimelines(g, machines, HeftPass(g, machines, s0, init), order[|order| - 1]);
    }
  }

  /** The same for PHEFT: each task other than the first node goes into a
      free interval of the machine it is given. */
  lemma OctStepKeepsTimelines(g: Graph, machines: nat, oct: map<(nat, nat), int>, s: Schedule, t: nat)
    requires ScheduleInputs(g, machines, s) && OctTableFor(g, machines, oct) && t < |g.tasks|
    requires PositiveRuntimes(g, machines) && ValidTimelines(s)
    requires IsFirstNode(g, t) ==> forall m :: 0 <= m < machines ==> s.timeline[m] == []
    ensures ValidTimelines(OctStep(g, machines, oct, s, t))
  {
    if IsFirstNode(g, t) {
      OctFirstStepKeepsTimelines(g, machines, oct, s, t);
    } else {
      OctLaterStepKeepsTimelines(g, machines, oct, s, t);
    }
  }

  lemma OctFirstStepKeepsTimelines(g: Graph, machines: nat, oct: map<(nat, nat), int>, s: Schedule, t: nat)
    requires ScheduleInputs(g, machines, s) && OctTableFor(g, machines, oct) && t < |g.tasks|
    requires PositiveRuntimes(g, machines) && ValidTimelines(s) && IsFirstNode(g, t)
    requires forall m :: 0 <= m < machines ==> s.timeline[m] == []
    ensures ValidTimelines(OctStep(g, machines, oct, s, t))
  {
    var d := OctDecide(g, machines, oct, s, t);
    assert d.ast == 0 && s.timeline[d.machine] == [];
    CommitKeepsTimelines(s, t, d.machine, d.ast, d.aft, d.makespan);
  }

  lemma OctLaterStepKeepsTimelines(g: Graph, machines: nat, oct: map<(nat, nat), int>, s: Schedule, t: nat)
    requires ScheduleInputs(g, machines, s) && OctTableFor(g, machines, oct) && t < |g.tasks|
    requires PositiveRuntimes(g, machines) && ValidTimelines(s) && !IsFirstNode(g, t)
    ensures ValidTimelines(OctStep(g, machines, oct, s, t))
  {
    var d := OctDecide(g, machines, oct, s, t);
    OctDecideStartsAtEst(g, machines, oct, s, t);
    EstSlotIsFree(g, machines, s, t, d.machine);
    CommitKeepsTimelines(s, t, d.machine, d.ast, d.aft, d.makespan);
  }

  lemma {:induction false} OctPassNoOverlap(g: Graph, machines: nat, oct: map<(nat, nat), int>, order: seq<nat>)
    requires WellFormed(g) && HasRuntimes(g, machines) && machines > 0 && OctTableFor(g, machines, oct)
    requires PositiveRuntimes(g, machines) && OrderInRange(g, order)
    requires |order| > 0 ==> IsFirstNode(g, order[0])
    requires forall k :: 0 < k < |order| ==> !IsFirstNode(g, order[k])
    ensures ValidTimelines(OctPass(g, machines, oct, InitialSchedule(|g.tasks|, machines), order))
  {
    var s0 := InitialSchedule(|g.tasks|, machines);
    if |order| == 1 {
      assert order[..0] == [];
      OctStepKeepsTimelines(g, machines, oct, s0, order[0]);
    } else if |order| > 1 {
      var init := order[..|order| - 1];
      OctPassNoOverlap(g, machines, oct, init);
      OctStepKeepsTimelines(g, machines, oct, OctPass(g, machines, oct, s0, init), order[|order| - 1]);
    }
  }

  // ---------------------------------------------------------------------
  // Every task of the pass is allocated

  ghost predicate AllPlaced(place: seq<Placement>, order: seq<nat>) {
    forall k :: 0 <= k < |order| ==> order[k] < |place| && place[order[k]].machine.Some?
  }

  /** Placing the last task of `order` keeps every task placed before it placed. */
  lemma PlacedAfterStep(p: seq<Placement>, r: seq<Placement>, order: seq<nat>)
    requires |r| == |p| && order != [] && order[|order| - 1] < |r|
    requires AllPlaced(p, order[..|order| - 1]) && r[order[|order| - 1]].machine.Some?
    requires forall i :: 0 <= i < |p| && i != order[|order| - 1] ==> r[i] == p[i]
    ensures AllPlaced(r, order)
  {
    var n := |order| - 1;
    forall k | 0 <= k < |order| ensures order[k] < |r| && r[order[k]].machine.Some? {
      if k < n {
        assert order[k] == order[..n][k];
      }
    }
  }

  lemma {:induction false} HeftPassPlacesAll(g: Graph, machines: nat, s: Schedule, order: seq<nat>)
    requires ScheduleInputs(g, machines, s) && OrderInRange(g, order)
    ensures AllPlaced(HeftPass(g, machines, s, order).place, order)
  {
    if order != [] {
      var init := order[..|order| - 1];
      assert OrderInRange(g, init);
      HeftPassPlacesAll(g, machines, s, init);
      var p := HeftPass(g, machines, s, init);
      PlacedAfterStep(p.place, HeftStep(g, machines, p, order[|order| - 1]).place, order);
    }
  }

  lemma {:induction false} OctPassPlacesAll(g: Graph, machines: nat, oct: map<(nat, nat), int>, s: Schedule, order: seq<nat>)
    requires ScheduleInputs(g, machines, s) && OctTableFor(g, machines, oct) && OrderInRange(g, order)
    ensures AllPlaced(OctPass(g, machines, oct, s, order).place, order)
  {
    if order != [] {
      var init := order[..|order| - 1];
      assert OrderInRange(g, init);
      OctPassPlacesAll(g, machines, oct, s, init);
      var p := OctPass(g, machines, oct, s, init);
      PlacedAfterStep(p.place, OctStep(g, machines, oct, p, order[|order| - 1]).place, order);
    }
  }

  // ---------------------------------------------------------------------
  // Precedence: a task starts after its predecessors' data has arrived

  /** Every edge whose source is scheduled before its destination (and whose
      destination is not the first node) is honoured by the placement. */
  ghost predicate RespectsPrecedence(g: Graph, place: seq<Placement>, order: seq<nat>)
    requires WellFormed(g) && |place| == |g.tasks| && OrderInRange(g, order)
  {
    forall j, p, q ::
      (&& 0 <= j < |g.edges| && 0 <= p < q < |order|
       && g.edges[j].src == order[p] && g.edges[j].dst == order[q]
       && !IsFirstNode(g, order[q]) && place[order[q]].machine.Some?) ==>
        place[order[q]].ast >= Arrival(place, g.edges[j], place[order[q]].machine.value)
  }

  /** A committed step keeps every earlier edge honoured and honours the
      edges into the task it places. */
  lemma StepKeepsPrecedence(g: Graph, s: Schedule, r: Schedule, order: seq<nat>, t: nat)
    requires WellFormed(g) && |s.place| == |g.tasks| && |r.place| == |g.tasks|
    requires OrderInRange(g, order) && t < |g.tasks| && t !in order
    requires RespectsPrecedence(g, s.place, order)
    requires forall i :: 0 <= i < |g.tasks| && i != t ==> r.place[i] == s.place[i]
    requires r.place[t].machine.Some?
    requires !IsFirstNode(g, t) ==> forall j :: 0 <= j < |g.edges| && g.edges[j].dst == t ==>
      r.place[t].ast >= Arrival(s.place, g.edges[j], r.place[t].machine.value)
    ensures RespectsPrecedence(g, r.place, order + [t])
  {
    var o := order + [t];
    assert OrderInRange(g, o);
    forall j, p, q | 0 <= j < |g.edges| && 0 <= p < q < |o|
      && g.edges[j].src == o[p] && g.edges[j].dst == o[q]
      && !IsFirstNode(g, o[q]) && r.place[o[q]].machine.Some?
      ensures r.place[o[q]].ast >= Arrival(r.place, g.edges[j], r.place[o[q]].machine.value)
    {
      assert o[p] == order[p] && order[p] in order;
      if q < |order| {
        assert o[q] == order[q] && order[q] in order;
      }
    }
  }

  /** A HEFT step for a task other than the first node starts it no earlier
      than the arrival of any predecessor's data on the chosen machine. */
  lemma HeftStepAfterArrivals(g: Graph, machines: nat, s: Schedule, t: nat)
    requires ScheduleInputs(g, machines, s) && t < |g.tasks|
    requires !IsFirstNode(g, t)
    ensures var r := HeftStep(g, machines, s, t);
      forall j :: 0 <= j < |g.edges| && g.edges[j].dst == t ==>
        r.place[t].ast >= Arrival(s.place, g.edges[j], r.place[t].machine.value)
  {
    var d := HeftDecide(g, machines, s, t);
    HeftDecideStartsAtEst(g, machines, s, t);
    ReadyTimeIsLatestArrival(g, s.place, t, d.machine);
  }

  lemma {:induction false} HeftPassRespectsPrecedence(g: Graph, machines: nat, order: seq<nat>)
    requires WellFormed(g) && HasRuntimes(g, machines) && machines > 0
    requires OrderInRange(g, order) && Distinct(order)
    ensures var r := HeftPass(g, machines, InitialSchedule(|g.tasks|, machines), order);
      RespectsPrecedence(g, r.place, order)
  {
    if order != [] {
      var s0 := InitialSchedule(|g.tasks|, machines);
      var init := order[..|order| - 1];
      var t := order[|order| - 1];
      assert order == init + [t] && t !in init;
      HeftPassRespectsPrecedence(g, machines, init);
      var s := HeftPass(g, machines, s0, init);
      if !IsFirstNode(g, t) {
        HeftStepAfterArrivals(g, machines, s, t);
      }
      StepKeepsPrecedence(g, s, HeftStep(g, machines, s, t), init, t);
    }
  }

  /** A PHEFT step for a task other than the first node starts it no earlier than the
      arrival of any predecessor's data on the chosen machine. */
  lemma OctStepAfterArrivals(g: Graph, machines: nat, oct: map<(nat, nat), int>, s: Schedule, t: nat)
    requires ScheduleInputs(g, machines, s) && OctTableFor(g, machines, oct) && t < |g.tasks|
    requires !IsFirstNode(g, t)
    ensures var r := OctStep(g, machines, oct, s, t);
      forall j :: 0 <= j < |g.edges| && g.edges[j].dst == t ==>
        r.place[t].ast >= Arrival(s.place, g.edges[j], r.place[t].machine.value)
  {
    var d := OctDecide(g, machines, oct, s, t);
    OctDecideStartsAtEst(g, machines, oct, s, t);
    ReadyTimeIsLatestArrival(g, s.place, t, d.machine);
  }

  lemma {:induction false} OctPassRespectsPrecedence(g: Graph, machines: nat, oct: map<(nat, nat), int>, order: seq<nat>)
    requires WellFormed(g) && HasRuntimes(g, machines) && machines > 0 && OctTableFor(g, machines, oct)
    requires OrderInRange(g, order) && Distinct(order)
    ensures var r := OctPass(g, machines, oct, InitialSchedule(|g.tasks|, machines), order);
      RespectsPrecedence(g, r.place, order)
  {
    if order != [] {
      var s0 := InitialSchedule(|g.tasks|, machines);
      var init := order[..|order| - 1];
      var t := order[|order| - 1];
      assert order == init + [t] && t !in init;
      OctPassRespectsPrecedence(g, machines, oct, init);
      var s := OctPass(g, machines, oct, s0, init);
      assert OrderInRange(g, init) && Distinct(init);
      if !IsFirstNode(g, t) {
        OctStepAfterArrivals(g, machines, oct, s, t);
      }
      StepKeepsPrecedence(g, s, OctStep(g, machines, oct, s, t), init, t);
    }
  }

  /** The order lists every edge's source before its destination. */
  ghost predicate SourcesFirst(g: Graph, order: seq<nat>) {
    forall j, p, q ::
      (&& 0 <= j < |g.edges| && 0 <= p < |order| && 0 <= q < |order|
       && order[p] == g.edges[j].src && order[q] == g.edges[j].dst) ==> p < q
  }

  /** Every edge into a placed task other than the first node is honoured. */
  ghost predicate HonoursEdges(g: Graph, place: seq<Placement>)
    requires WellFormed(g) && |place| == |g.tasks|
  {
    forall j ::
      (&& 0 <= j < |g.edges| && g.edges[j] in g.edges
       && !IsFirstNode(g, g.edges[j].dst) && place[g.edges[j].dst].machine.Some?) ==>
        place[g.edges[j].dst].ast >= Arrival(place, g.edges[j], place[g.edges[j].dst].machine.value)
  }

  /** Over an order holding every task with every source before its
      destination, in-order precedence is precedence along every edge. */
  lemma PrecedenceHonoursEdges(g: Graph, place: seq<Placement>, order: seq<nat>)
    requires WellFormed(g) && |place| == |g.tasks| && OrderInRange(g, order)
    requires forall i :: 0 <= i < |g.tasks| ==> i in order
    requires SourcesFirst(g, order) && RespectsPrecedence(g, place, order)
    ensures HonoursEdges(g, place)
  {
    forall j | 0 <= j < |g.edges| && g.edges[j] in g.edges
      && !IsFirstNode(g, g.edges[j].dst) && place[g.edges[j].dst].machine.Some?
      ensures place[g.edges[j].dst].ast >= Arrival(place, g.edges[j], place[g.edges[j].dst].machine.value)
    {
      var e := g.edges[j];
      assert e.src in order && e.dst in order;
      var p :| 0 <= p < |order| && order[p] == e.src;
      var q :| 0 <= q < |order| && order[q] == e.dst;
      assert p < q;
    }
  }

  // ---------------------------------------------------------------------
  // The makespan

  /** The largest finish time, seeded with 0, over the tasks of `order` other
      than the first node. */
  function MaxFinish(g: Graph, place: seq<Placement>, order: seq<nat>): (r: int)
    requires |place| == |g.tasks| && OrderInRange(g, order)
    ensures r >= 0
    ensures forall k :: 0 <= k < |order| && !IsFirstNode(g, order[k]) ==> r >= place[order[k]].aft
    ensures r == 0 || exists k :: 0 <= k < |order| && !IsFirstNode(g, order[k]) && r == place[order[k]].aft
  {
    if order == [] then 0
    else
      var t := order[|order| - 1];
      var prev := MaxFinish(g, place, order[..|order| - 1]);
      if !IsFirstNode(g, t) && place[t].aft >= prev then place[t].aft else prev
  }

  lemma {:induction false} MaxFinishFrame(g: Graph, place: seq<Placement>, order: seq<nat>, t: nat, p: Placement)
    requires |place| == |g.tasks| && OrderInRange(g, order) && t < |place| && t !in order
    ensures MaxFinish(g, place[t := p], order) == MaxFinish(g, place, order)
  {
    if order != [] {
      MaxFinishFrame(g, place, order[..|order| - 1], t, p);
    }
  }

  /** The PHEFT makespan is the largest finish time over all tasks scheduled,
      leaving out the first node (which never moves the makespan). */
  lemma {:induction false} OctMakespanIsMaxFinish(g: Graph, machines: nat, oct: map<(nat, nat), int>, order: seq<nat>)
    requires WellFormed(g) && HasRuntimes(g, machines) && machines > 0
    requires OctTableFor(g, machines, oct) && OrderInRange(g, order) && Distinct(order)
    ensures var r := OctPass(g, machines, oct, InitialSchedule(|g.tasks|, machines), order);
      r.makespan == MaxFinish(g, r.place, order)
  {
    if order != [] {
      var s0 := InitialSchedule(|g.tasks|, machines);
      var init := order[..|order| - 1];
      var t := order[|order| - 1];
      OctMakespanIsMaxFinish(g, machines, oct, init);
      var s := OctPass(g, machines, oct, s0, init);
      var r := OctStep(g, machines, oct, s, t);
      assert r.place == s.place[t := r.place[t]];
      assert t !in init;
      MaxFinishFrame(g, s.place, init, t, r.place[t]);
    }
  }

  /** One HEFT step either leaves the makespan alone or moves it to the
      finish time of the task just placed, which is then not the first node. */
  lemma HeftStepMakespan(g: Graph, machines: nat, s: Schedule, t: nat)
    requires ScheduleInputs(g, machines, s) && t < |g.tasks|
    ensures var r := HeftStep(g, machines, s, t);
      r.makespan == s.makespan || (!IsFirstNode(g, t) && r.makespan == r.place[t].aft)
  {
  }

  /** The HEFT makespan never exceeds the largest finish time over the tasks
      scheduled (the first node aside), and it is always 0 or the finish time
      of one of them. It can fall short: the makespan only moves when a task
      starts at or after it. */
  lemma {:induction false} HeftMakespanBounded(g: Graph, machines: nat, order: seq<nat>)
    requires WellFormed(g) && HasRuntimes(g, machines) && machines > 0
    requires OrderInRange(g, order) && Distinct(order)
    ensures var r := HeftPass(g, machines, InitialSchedule(|g.tasks|, machines), order);
      && r.makespan <= MaxFinish(g, r.place, order)
      && (r.makespan == 0 ||
          exists k :: 0 <= k < |order| && !IsFirstNode(g, order[k]) && r.makespan == r.place[order[k]].aft)
  {
    if order != [] {
      var s0 := InitialSchedule(|g.tasks|, machines);
      var init := order[..|order| - 1];
      var t := order[|order| - 1];
      HeftMakespanBounded(g, machines, init);
      var s := HeftPass(g, machines, s0, init);
      HeftStepMakespan(g, machines, s, t);
      var r := HeftStep(g, machines, s, t);
      MakespanStepBounded(g, s.place, r.place, s.makespan, r.makespan, order);
    }
  }

  /** The step of `HeftMakespanBounded`, over placements alone: a makespan
      within the finish times of `order` minus its last task stays within them
      when it is kept or moved to that task's finish time. */
  lemma MakespanStepBounded(g: Graph, place: seq<Placement>, place': seq<Placement>,
                            makespan: int, makespan': int, order: seq<nat>)
    requires |place| == |g.tasks| == |place'| && OrderInRange(g, order) && Distinct(order) && order != []
    requires var t := order[|order| - 1]; place' == place[t := place'[t]]
    requires var init := order[..|order| - 1];
      && makespan <= MaxFinish(g, place, init)
      && (makespan == 0 ||
          exists k :: 0 <= k < |init| && !IsFirstNode(g, init[k]) && makespan == place[init[k]].aft)
    requires var t := order[|order| - 1];
      makespan' == makespan || (!IsFirstNode(g, t) && makespan' == place'[t].aft)
    ensures makespan' <= MaxFinish(g, place', order)
    ensures makespan' == 0 ||
      exists k :: 0 <= k < |order| && !IsFirstNode(g, order[k]) && makespan' == place'[order[k]].aft
  {
    var init := order[..|order| - 1];
    var t := order[|order| - 1];
    assert t !in init;
    MaxFinishFrame(g, place, init, t, place'[t]);
    if makespan' == makespan {
      if makespan != 0 {
        var k :| 0 <= k < |init| && !IsFirstNode(g, init[k]) && makespan == place[init[k]].aft;
        assert order[k] == init[k] && init[k] != t;
      }
    } else {
      assert order[|order| - 1] == t;
    }
  }

  /** Three independent tasks on two machines, numbered in graph order. */
  function ThreeTasks(): (g: Graph)
    ensures ThreeTasksShape(g)
  {
    Graph([Task(0, Unranked, [10, 110], [10, 110], None, 0, 0),
           Task(1, Unranked, [100, 20], [100, 20], None, 0, 0),
           Task(2, Unranked, [15, 100], [15, 100], None, 0, 0)], [], [0, 0, 0])
  }

  /** What the worked HEFT example needs to know of `ThreeTasks`. */
  ghost predicate ThreeTasksShape(g: Graph) {
    && WellFormed(g) && HasRuntimes(g, 2) && |g.tasks| == 3 && g.edges == []
    && g.tasks[0].tid == 0 && g.tasks[1].tid == 1 && g.tasks[2].tid == 2
    && g.tasks[0].runtime == [10, 110] && g.tasks[1].runtime == [100, 20] && g.tasks[2].runtime == [15, 100]
  }

  /** Without edges every task is ready at 0, so its finish on a machine is
      the gap search from 0 plus its runtime there. */
  lemma EftsWithoutEdges(g: Graph, machines: nat, s: Schedule, t: nat)
    requires ScheduleInputs(g, machines, s) && t < |g.tasks| && g.edges == []
    ensures forall m :: 0 <= m < machines ==>
      Efts(g, machines, s, t)[m] == GapSearch(s.timeline[m], 0, g.tasks[t].runtime[m]) + g.tasks[t].runtime[m]
  {
  }

  /** Inserting into an idle machine gives a one-allocation list. */
  lemma InsertIntoIdle(a: Alloc)
    ensures InsertByStart([], a) == [a]
  {
    var e: seq<Alloc> := [];
    assert InsertByStart(e, a) == e[..0] + [a] + e[0..];
  }

  lemma ThreeTasksFirst(g: Graph)
    requires ThreeTasksShape(g)
    ensures HeftStep(g, 2, InitialSchedule(3, 2), 0)
      == Schedule([Placement(Some(0), 0, 10), Unplaced, Unplaced], [[Alloc(0, 0, 10)], []], 0)
  {
    assert IsFirstNode(g, 0);
    assert FirstMinUpTo([10, 110], 2) == 0;
    InsertIntoIdle(Alloc(0, 0, 10));
  }

  lemma ThreeTasksSecondEfts(g: Graph, s: Schedule)
    requires ScheduleInputs(g, 2, s) && g.edges == [] && 1 < |g.tasks| && g.tasks[1].runtime == [100, 20]
    requires s.timeline == [[Alloc(0, 0, 10)], []]
    ensures Efts(g, 2, s, 1) == [110, 20]
  {
    var efts := Efts(g, 2, s, 1);
    EftsWithoutEdges(g, 2, s, 1);
    assert efts[0] == 110 by {
      GapSearchAfterSole(Alloc(0, 0, 10), 0, 100);
    }
    assert efts[1] == 20 by {
      assert s.timeline[1] == [];
    }
  }

  lemma ThreeTasksSecondChoice(g: Graph, s: Schedule)
    requires ThreeTasksShape(g)
    requires s == Schedule([Placement(Some(0), 0, 10), Unplaced, Unplaced], [[Alloc(0, 0, 10)], []], 0)
    ensures HeftDecide(g, 2, s, 1) == Decision(1, 0, 20, 20)
  {
    assert !IsFirstNode(g, 1);
    ThreeTasksSecondEfts(g, s);
    assert Select([110, 20]) == (20, 1);
  }

  lemma ThreeTasksSecond(g: Graph)
    requires ThreeTasksShape(g)
    ensures HeftStep(g, 2,
        Schedule([Placement(Some(0), 0, 10), Unplaced, Unplaced], [[Alloc(0, 0, 10)], []], 0), 1)
      == Schedule([Placement(Some(0), 0, 10), Placement(Some(1), 0, 20), Unplaced],
                  [[Alloc(0, 0, 10)], [Alloc(1, 0, 20)]], 20)
  {
    var s := Schedule([Placement(Some(0), 0, 10), Unplaced, Unplaced], [[Alloc(0, 0, 10)], []], 0);
    ThreeTasksSecondChoice(g, s);
    InsertIntoIdle(Alloc(1, 0, 20));
    assert s.place[1 := Placement(Some(1), 0, 20)]
      == [Placement(Some(0), 0, 10), Placement(Some(1), 0, 20), Unplaced];
    assert s.timeline[1 := [Alloc(1, 0, 20)]] == [[Alloc(0, 0, 10)], [Alloc(1, 0, 20)]];
  }

  lemma ThreeTasksThirdEfts(g: Graph, s: Schedule)
    requires ScheduleInputs(g, 2, s) && g.edges == [] && 2 < |g.tasks| && g.tasks[2].runtime == [15, 100]
    requires s.timeline == [[Alloc(0, 0, 10)], [Alloc(1, 0, 20)]]
    ensures Efts(g, 2, s, 2) == [25, 120]
  {
    EftsWithoutEdges(g, 2, s, 2);
    assert Efts(g, 2, s, 2)[0] == 25 by {
      GapSearchAfterSole(Alloc(0, 0, 10), 0, 15);
    }
    assert Efts(g, 2, s, 2)[1] == 120 by {
      GapSearchAfterSole(Alloc(1, 0, 20), 0, 100);
    }
  }

  lemma ThreeTasksThirdChoice(g: Graph, s: Schedule)
    requires ThreeTasksShape(g)
    requires s == Schedule([Placement(Some(0), 0, 10), Placement(Some(1), 0, 20), Unplaced],
                           [[Alloc(0, 0, 10)], [Alloc(1, 0, 20)]], 20)
    ensures HeftDecide(g, 2, s, 2) == Decision(0, 10, 25, 20)
  {
    assert !IsFirstNode(g, 2);
    ThreeTasksThirdEfts(g, s);
    assert Select([25, 120]) == (25, 0);
  }

  lemma ThreeTasksThird(g: Graph)
    requires ThreeTasksShape(g)
    ensures var r := HeftStep(g, 2,
        Schedule([Placement(Some(0), 0, 10), Placement(Some(1), 0, 20), Unplaced],
                 [[Alloc(0, 0, 10)], [Alloc(1, 0, 20)]], 20), 2);
      r.makespan == 20 && r.place[0] == Placement(Some(0), 0, 10)
      && r.place[1] == Placement(Some(1), 0, 20) && r.place[2] == Placement(Some(0), 10, 25)
  {
    ThreeTasksThirdChoice(g, Schedule([Placement(Some(0), 0, 10), Placement(Some(1), 0, 20), Unplaced],
                                      [[Alloc(0, 0, 10)], [Alloc(1, 0, 20)]], 20));
  }

  lemma ThreeTasksFirstTwo(g: Graph)
    requires ThreeTasksShape(g)
    ensures HeftPass(g, 2, InitialSchedule(3, 2), [0, 1])
      == Schedule([Placement(Some(0), 0, 10), Placement(Some(1), 0, 20), Unplaced],
                  [[Alloc(0, 0, 10)], [Alloc(1, 0, 20)]], 20)
  {
    var s0 := InitialSchedule(3, 2);
    assert [0, 1][..1] == [0] && [0][..0] == [];
    ThreeTasksFirst(g);
    assert HeftPass(g, 2, s0, [0])
      == Schedule([Placement(Some(0), 0, 10), Unplaced, Unplaced], [[Alloc(0, 0, 10)], []], 0);
    ThreeTasksSecond(g);
  }

  /** With `ThreeTasks`, the first node takes machine 0 over [0, 10); task 1
      takes machine 1 over [0, 20) and moves the makespan to 20; task 2 fills
      machine 0 over [10, 25), but as it starts before 20 the makespan stays
      20 although a task finishes at 25. */
  lemma HeftMakespanCanMissFinish(g: Graph, order: seq<nat>)
    requires ThreeTasksShape(g) && order == [0, 1, 2]
    ensures var r := HeftPass(g, 2, InitialSchedule(3, 2), order);
      r.makespan == 20 && r.place[2] == Placement(Some(0), 10, 25) && !IsFirstNode(g, 2)
  {
    var s0 := InitialSchedule(3, 2);
    assert OrderInRange(g, [0, 1, 2]) && !IsFirstNode(g, 2);
    assert order[..2] == [0, 1];
    var s2 := Schedule([Placement(Some(0), 0, 10), Placement(Some(1), 0, 20), Unplaced],
                       [[Alloc(0, 0, 10)], [Alloc(1, 0, 20)]], 20);
    ThreeTasksFirstTwo(g);
    assert HeftPass(g, 2, s0, order) == HeftStep(g, 2, s2, 2);
    ThreeTasksThird(g);
  }
}

=== FILE: workflow.dfy ===
/**
  The workflow data model: the `Task` record with its identity, runtime queries
  and setters, the DAG of tasks (an arena indexed by node position), the
  rank sort and the positional runtime mapping done when an environment is
  attached.

  Machines are identified by their position in the environment's key order,
  so a task's runtime table is a sequence indexed by machine position.
 */
module Workflow {
  import opened Wrappers

  /** The "unranked" sentinel a fresh task carries. */
  const Unranked: real := -1.0

  /** A DAG node. `flops` is the node's `comp` attribute (a per-machine cost
      list in time mode); `runtime` is the per-machine duration table filled in
      when an environment is attached. */
  datatype Task = Task(
    tid: nat,
    rank: real,
    flops: seq<int>,
    runtime: seq<int>,
    machine: Option<nat>,
    ast: int,
    aft: int)

  /** A fresh task: unranked, unallocated, start and finish 0, empty runtime table. */
  function NewTask(tid: nat, flops: seq<int>): (t: Task)
    ensures t.tid == tid && t.flops == flops
    ensures t.rank == Unranked && t.machine == None
    ensures t.ast == 0 && t.aft == 0 && t.runtime == []
  {
    Task(tid, Unranked, flops, [], None, 0, 0)
  }

  // ---------------------------------------------------------------------
  // Identity: equality, hashing and ordering look at the task id only.

  predicate SameTask(a: Task, b: Task) {
    a.tid == b.tid
  }

  predicate TaskLess(a: Task, b: Task) {
    a.tid < b.tid
  }

  predicate TaskLessEq(a: Task, b: Task) {
    a.tid <= b.tid
  }

  /** CPython's hash of a non-negative int: its residue modulo 2^61 - 1. */
  const HashModulus: nat := 0x1FFF_FFFF_FFFF_FFFF

  function TaskHash(t: Task): int {
    t.tid % HashModulus
  }

  /** Equal tasks hash alike, and neither equality, hashing nor ordering sees
      any field other than the id: changing rank, runtimes or allocation of a
      task leaves all of them unchanged. */
  lemma IdentityIsTid(a: Task, b: Task, a': Task, b': Task)
    requires a'.tid == a.tid && b'.tid == b.tid
    ensures SameTask(a, b) ==> TaskHash(a) == TaskHash(b)
    ensures SameTask(a', b') == SameTask(a, b)
    ensures TaskLess(a', b') == TaskLess(a, b)
    ensures TaskLessEq(a', b') == TaskLessEq(a, b)
    ensures TaskLessEq(a, b) <==> TaskLess(a, b) || SameTask(a, b)
    ensures !TaskLess(a, a) && (TaskLess(a, b) ==> !TaskLess(b, a))
  {
  }

  // ---------------------------------------------------------------------
  // Runtime queries

  function Sum(s: seq<int>): int {
    if s == [] then 0 else Sum(s[..|s| - 1]) + s[|s| - 1]
  }

  /** Lookup of the runtime on machine `m`; `None` stands for the KeyError of a
      machine the table has no entry for. */
  function CalcRuntime(t: Task, m: nat): (r: Option<int>)
    ensures r.Some? <==> m < |t.runtime|
    ensures r.Some? ==> r.value == t.runtime[m]
  {
    if m < |t.runtime| then Some(t.runtime[m]) else None
  }

  /** Mean of the runtime table (true division; the empty table divides by zero). */
  function CalcAveRuntime(t: Task): (r: real)
    requires |t.runtime| > 0
    ensures r * (|t.runtime| as real) == Sum(t.runtime) as real
  {
    (Sum(t.runtime) as real) / (|t.runtime| as real)
  }

  lemma {:induction false} SumBounds(s: seq<int>, lo: int, hi: int)
    requires forall i :: 0 <= i < |s| ==> lo <= s[i] <= hi
    ensures |s| * lo <= Sum(s) <= |s| * hi
  {
    if s != [] {
      var k := |s| - 1;
      SumBounds(s[..k], lo, hi);
      assert (k + 1) * lo == k * lo + lo && (k + 1) * hi == k * hi + hi;
    }
  }

  /** A quotient by a positive divisor lies between `lo` and `hi` when the
      dividend lies between `lo` and `hi` times the divisor. */
  lemma QuotientWithin(total: real, n: real, lo: real, hi: real)
    requires n > 0.0 && n * lo <= total <= n * hi
    ensures lo <= total / n <= hi
  {
    assert total / n * n == total;
  }

  /** The average runtime lies between the smallest and largest runtime. */
  lemma AveRuntimeWithin(t: Task, lo: int, hi: int)
    requires |t.runtime| > 0
    requires forall i :: 0 <= i < |t.runtime| ==> lo <= t.runtime[i] <= hi
    ensures lo as real <= CalcAveRuntime(t) <= hi as real
  {
    var n := |t.runtime|;
    SumBounds(t.runtime, lo, hi);
    assert (n * lo) as real == (n as real) * (lo as real) && (n * hi) as real == (n as real) * (hi as real);
    QuotientWithin(Sum(t.runtime) as real, |t.runtime| as real, lo as real, hi as real);
  }

  lemma {:induction false} SumPositive(s: seq<int>)
    requires s != [] && forall i :: 0 <= i < |s| ==> s[i] > 0
    ensures Sum(s) > 0
  {
    if |s| > 1 {
      SumPositive(s[..|s| - 1]);
    }
  }

  /** With every runtime positive, so is the average. */
  lemma AveRuntimePositive(t: Task)
    requires |t.runtime| > 0
    requires forall i :: 0 <= i < |t.runtime| ==> t.runtime[i] > 0
    ensures CalcAveRuntime(t) > 0.0
  {
    SumPositive(t.runtime);
  }

  // ---------------------------------------------------------------------
  // Setters

  function UpdateTaskRank(t: Task, rank: real): (r: Task)
    ensures r.rank == rank
    ensures r.(rank := t.rank) == t
  {
    t.(rank := rank)
  }

  function AllocateTask(t: Task, m: nat): (r: Task)
    ensures r.machine == Some(m)
    ensures r.(machine := t.machine) == t
  {
    t.(machine := Some(m))
  }

  // ---------------------------------------------------------------------
  // The DAG

  /** A data-dependency edge carrying the edge's `data_size`. */
  datatype Edge = Edge(src: nat, dst: nat, dataSize: int)

  /** Tasks in graph node order, the edges, and a topological index `level`
      (every edge goes from a lower to a higher level) standing for the
      acyclicity the rank recursion relies on. */
  datatype Graph = Graph(tasks: seq<Task>, edges: seq<Edge>, level: seq<nat>)

  /** The id of the task at position `i`. */
  function IdAt(tasks: seq<Task>, i: nat): nat
    requires i < |tasks|
  {
    tasks[i].tid
  }

  /** No two positions hold the same task id. The trigger is `IdAt` rather
      than `tid`, so the fact is used only where a proof asks for it. */
  ghost predicate UniqueIds(tasks: seq<Task>) {
    forall i, j {:trigger IdAt(tasks, i), IdAt(tasks, j)} ::
      0 <= i < |tasks| && 0 <= j < |tasks| && i != j ==> IdAt(tasks, i) != IdAt(tasks, j)
  }

  /** Task ids are unique, every edge joins two tasks and climbs a level, and
      a pair of tasks has at most one edge, as in a networkx `DiGraph`. */
  ghost predicate WellFormed(g: Graph) {
    && UniqueIds(g.tasks)
    && |g.level| == |g.tasks|
    && (forall i :: 0 <= i < |g.level| ==> g.level[i] < |g.tasks|)
    && (forall e :: e in g.edges ==>
          e.src < |g.tasks| && e.dst < |g.tasks| && g.level[e.src] < g.level[e.dst])
    && (forall i, j :: 0 <= i < j < |g.edges| ==>
          (g.edges[i].src, g.edges[i].dst) != (g.edges[j].src, g.edges[j].dst))
  }

  /** Every task is as a fresh `Task` leaves it: unranked, unallocated, with
      start and finish 0. */
  ghost predicate Fresh(g: Graph) {
    forall i {:trigger IsFresh(g.tasks[i])} :: 0 <= i < |g.tasks| ==> IsFresh(g.tasks[i])
  }

  predicate IsFresh(t: Task) {
    t.rank == Unranked && t.machine == None && t.ast == 0 && t.aft == 0
  }

  /** Every task has exactly one runtime per machine. */
  ghost predicate HasRuntimes(g: Graph, machines: nat) {
    forall i :: 0 <= i < |g.tasks| ==> |g.tasks[i].runtime| == machines
  }

  // ---------------------------------------------------------------------
  // Rank sort: descending rank, stable (equal ranks keep node order)

  /** `a` is placed before `b`: higher rank first, node order among equals. */
  predicate Before(ranks: seq<real>, a: nat, b: nat)
    requires a < |ranks| && b < |ranks|
  {
    ranks[a] > ranks[b] || (ranks[a] == ranks[b] && a < b)
  }

  ghost predicate InRange(ranks: seq<real>, s: seq<nat>) {
    forall i :: 0 <= i < |s| ==> s[i] < |ranks|
  }

  ghost predicate SortedByRank(ranks: seq<real>, s: seq<nat>)
    requires InRange(ranks, s)
  {
    forall i, j :: 0 <= i < j < |s| ==> Before(ranks, s[i], s[j])
  }

  function InsertByRank(ranks: seq<real>, x: nat, s: seq<nat>): (r: seq<nat>)
    requires x < |ranks| && InRange(ranks, s)
    ensures InRange(ranks, r)
    ensures multiset(r) == multiset(s) + multiset{x}
  {
    if s == [] then [x]
    else if Before(ranks, x, s[0]) then [x] + s
    else
      assert s == [s[0]] + s[1..];
      [s[0]] + InsertByRank(ranks, x, s[1..])
  }

  /** Inserting a task not yet in a rank-sorted sequence keeps it sorted. */
  lemma {:induction false} InsertKeepsSorted(ranks: seq<real>, x: nat, s: seq<nat>)
    requires x < |ranks| && InRange(ranks, s) && SortedByRank(ranks, s) && x !in s
    ensures SortedByRank(ranks, InsertByRank(ranks, x, s))
  {
    if s != [] && !Before(ranks, x, s[0]) {
      var rest := InsertByRank(ranks, x, s[1..]);
      InsertKeepsSorted(ranks, x, s[1..]);
      var r := [s[0]] + rest;
      forall j | 1 <= j < |r| ensures Before(ranks, s[0], r[j]) {
        assert r[j] in multiset(rest);
        assert r[j] == x || r[j] in multiset(s[1..]);
        if r[j] != x {
          assert r[j] in s[1..];
          var k :| 0 <= k < |s[1..]| && s[1..][k] == r[j];
          assert s[k + 1] == r[j];
        }
      }
    }
  }

  function SortByRank(ranks: seq<real>, ids: seq<nat>): (r: seq<nat>)
    requires InRange(ranks, ids)
    ensures InRange(ranks, r)
    ensures multiset(r) == multiset(ids)
  {
    if ids == [] then []
    else
      assert ids == ids[..|ids| - 1] + [ids[|ids| - 1]];
      InsertByRank(ranks, ids[|ids| - 1], SortByRank(ranks, ids[..|ids| - 1]))
  }

  ghost predicate Distinct(s: seq<nat>) {
    forall i, j :: 0 <= i < j < |s| ==> s[i] != s[j]
  }

  /** Sorting distinct tasks yields a rank-sorted sequence. */
  lemma {:induction false} SortByRankSorted(ranks: seq<real>, ids: seq<nat>)
    requires InRange(ranks, ids) && Distinct(ids)
    ensures SortedByRank(ranks, SortByRank(ranks, ids))
  {
    if ids != [] {
      var init := ids[..|ids| - 1];
      var last := ids[|ids| - 1];
      SortByRankSorted(ranks, init);
      var sorted := SortByRank(ranks, init);
      assert last !in init by {
        forall k | 0 <= k < |init| ensures init[k] != last {
          assert ids[k] != ids[|ids| - 1];
        }
      }
      assert last !in sorted by {
        assert last !in multiset(init);
        assert last !in multiset(sorted);
      }
      InsertKeepsSorted(ranks, last, sorted);
    }
  }

  /** `[0, 1, ..., n - 1]`: the tasks in graph node order. */
  function NodeOrder(n: nat): (r: seq<nat>)
    ensures |r| == n && forall i :: 0 <= i < n ==> r[i] == i
  {
    if n == 0 then [] else NodeOrder(n - 1) + [n - 1]
  }

  /** `sort_tasks`: by rank for "rank", `None` for an unknown sort type. The
      "topological" branch is not part of this model. */
  function SortTasks(ranks: seq<real>, sortType: string): (r: Option<seq<nat>>)
    requires sortType != "topological"
    ensures r.Some? <==> sortType == "rank"
    ensures r.Some? ==> |r.value| == |ranks|
    ensures r.Some? ==> forall i :: 0 <= i < |ranks| ==> i in r.value
    ensures r.Some? ==> InRange(ranks, r.value) && SortedByRank(ranks, r.value)
  {
    if sortType == "rank" then
      var ids := NodeOrder(|ranks|);
      var s := SortByRank(ranks, ids);
      SortByRankSorted(ranks, ids);
      assert |s| == |ranks| by {
        assert |multiset(s)| == |multiset(ids)|;
      }
      assert forall i :: 0 <= i < |ranks| ==> i in s by {
        forall i | 0 <= i < |ranks| ensures i in s {
          assert ids[i] == i;
          assert i in multiset(ids);
        }
      }
      Some(s)
    else None
  }

  /** The sort is a permutation, ranks never increase along it, and equal
      ranks keep graph node order. */
  lemma SortIsStableDescending(ranks: seq<real>, s: seq<nat>, i: nat, j: nat)
    requires SortTasks(ranks, "rank") == Some(s)
    requires i < j < |s|
    ensures s[i] != s[j]
    ensures ranks[s[i]] >= ranks[s[j]]
    ensures ranks[s[i]] == ranks[s[j]] ==> s[i] < s[j]
  {
    assert Before(ranks, s[i], s[j]);
  }

  // ---------------------------------------------------------------------
  // Attaching an environment in time mode

  /** Position of the first task whose `comp` list does not have one entry per
      machine, or the number of tasks when there is none. */
  function FirstMismatch(tasks: seq<Task>, machines: nat): (k: nat)
    ensures k <= |tasks|
    ensures forall i :: 0 <= i < k ==> |tasks[i].flops| == machines
    ensures k < |tasks| ==> |tasks[k].flops| != machines
  {
    if tasks == [] || |tasks[0].flops| != machines then 0
    else 1 + FirstMismatch(tasks[1..], machines)
  }

  /** `add_environment` in time mode: walks the tasks in node order and gives
      each one its `comp` list as runtime table, read positionally against the
      machines; the first task whose `comp` list does not have one entry per
      machine stops the walk with -1, otherwise the result is 0. */
  function AddEnvironment(tasks: seq<Task>, machines: nat): (r: (int, seq<Task>))
    ensures |r.1| == |tasks|
    ensures r.0 == 0 || r.0 == -1
  {
    if tasks == [] then (0, [])
    else if |tasks[0].flops| != machines then (-1, tasks)
    else
      var rest := AddEnvironment(tasks[1..], machines);
      (rest.0, [tasks[0].(runtime := tasks[0].flops)] + rest.1)
  }

  /** Success exactly when every `comp` list fits the machines; the tasks
      before the first misfit get their `comp` list as runtime table (so on
      success every task has one runtime per machine), and the rest are
      untouched. */
  lemma {:induction false} AddEnvironmentAttachesRuntimes(tasks: seq<Task>, machines: nat)
    ensures var r := AddEnvironment(tasks, machines);
      && (r.0 == 0 <==> forall i :: 0 <= i < |tasks| ==> |tasks[i].flops| == machines)
      && (forall i :: 0 <= i < FirstMismatch(tasks, machines) ==>
            r.1[i] == tasks[i].(runtime := tasks[i].flops))
      && (forall i :: FirstMismatch(tasks, machines) <= i < |tasks| ==> r.1[i] == tasks[i])
      && (r.0 == 0 ==> forall i :: 0 <= i < |tasks| ==> |r.1[i].runtime| == machines)
  {
    if tasks != [] && |tasks[0].flops| == machines {
      var tail := tasks[1..];
      AddEnvironmentAttachesRuntimes(tail, machines);
      var rest := AddEnvironment(tail, machines);
      var r := AddEnvironment(tasks, machines);
      var k := FirstMismatch(tasks, machines);
      assert r.1 == [tasks[0].(runtime := tasks[0].flops)] + rest.1;
      assert k == 1 + FirstMismatch(tail, machines);
      forall i | 0 < i < |tasks| ensures r.1[i] == rest.1[i - 1] && tasks[i] == tail[i - 1] {
      }
      if r.0 == 0 {
        assert forall i :: 0 <= i < |tasks| ==> |tasks[i].flops| == machines;
      }
      if forall i :: 0 <= i < |tasks| ==> |tasks[i].flops| == machines {
        assert forall i :: 0 <= i < |tail| ==> |tail[i].flops| == machines;
      }
    }
  }
}

=== FILE: wrappers.dfy ===
/** Optional values standing for the source's error returns (KeyError, `None` results). */
module Wrappers {

  datatype Option<+T> = None | Some(value: T)
}
